=== FILE: README.md ===
# emu6502 core, modelled in Dafny

This project models the core of emu6502, a 6502 emulator and debugger written in Go:

- **Context** (`context.dfy`). The CPU context holds five 8-bit registers (A, X, Y, SP and the flags byte), a 16-bit program counter and 64K of RAM. The model gives byte and little-endian word access, with addresses that wrap from 0xFFFF to 0x0000.
- **AddressModes** (`addressmode.dfy`). These are the addressing-mode resolvers. Immediate operands are read-only, with a Read function. Zero-page, absolute and the two zero-page indexed modes each come as a Read function and a Write method.
- **InstructionExec** (`instructionexec.dfy`). This covers the two LDA executors and the Z/N flag update they share.
- **Primitives** (`primatives.dfy`). These are the 8-bit add, subtract and shift primitives, with the carry as the source computes it.
- **Disassembler** (`disassemble.dfy`). It covers:
  - the 256-entry metadata table, filled from the instruction list;
  - the operand formatter;
  - `Disassemble`, which turns the bytes at an address into text and a length.
- **ParseUtils** (`parseutils.dfy`). This is the debugger's number parser: blanks are trimmed, and a leading `$` selects hexadecimal. It sits on the unsigned and signed parsers of Go's `strconv`, whose behaviour the model spells out:
  - the digits are scanned left to right;
  - a bad digit gives (0, syntax error);
  - an overflow gives (largest value, range error);
  - a bit size of 0 means 64, and one outside 0..64 is refused.
- **Commands** (`commands.dfy`). These are the debugger's command handlers: set a byte, fill a block, set a register and push a byte. It also covers the dispatcher's branching on the first word of a command line.

Go's `uint8` and `uint16` are the newtypes `u8` and `u16`, with their wrap-around written out (`Wrap8`, `Wrap16`). The flags byte is a `bv8`, because it is only ever masked. The context is a class: its methods change its fields and its RAM array in place, and they state the whole new register file through the `Regs()` snapshot.

## Model

| member | source | states |
|---|---|---|
| Context.FlagMask | core6502/context.go:36-45 | The eight flag masks are `1 << i`, from C at bit 0 up to N at bit 7. |
| Context.FlagMasksPartitionByte | core6502/context.go:36-45 | The flag masks are pairwise disjoint, and together they cover all eight bits. |
| Context.WithFlag | core6502/context.go:81-87 | Setting a flag sets every bit of the mask; clearing it clears them. All bits outside the mask stay as they were. |
| Context.Word | core6502/context.go:121-125 | The word built from two bytes has exactly those bytes as its low and high byte. |
| Context.WordOfBytes | core6502/context.go:121-130 | Splitting a word into bytes and joining them again gives the word back. |
| Context.BasicCPUContext.constructor | core6502/context.go:25-33 | A new context has all registers zero and all 64K bytes of RAM zero. |
| Context.BasicCPUContext.Flag | core6502/context.go:53-55 | A flag query is true iff some bit of the mask is set in the flags byte, so an empty mask is never set. |
| Context.BasicCPUContext.Flags | core6502/context.go:57-59 | Returns the flags byte of the register file. |
| Context.BasicCPUContext.RegA | core6502/context.go:61-63 | Returns A from the register file; `SetRegA` reads back through it. |
| Context.BasicCPUContext.RegX | core6502/context.go:65-67 | Returns X from the register file; `SetRegX` reads back through it. |
| Context.BasicCPUContext.RegY | core6502/context.go:69-71 | Returns Y from the register file; `SetRegY` reads back through it. |
| Context.BasicCPUContext.RegSP | core6502/context.go:73-75 | Returns SP from the register file; `SetRegSP` reads back through it. |
| Context.BasicCPUContext.RegPC | core6502/context.go:77-79 | Returns PC from the register file; `SetRegPC` reads back through it. |
| Context.BasicCPUContext.SetFlag | core6502/context.go:81-87 | Only the flags byte changes. `Flag(mask)` then reads the new value. Flags disjoint from the mask keep their old value, and RAM is untouched. |
| Context.BasicCPUContext.SetFlags | core6502/context.go:89-91 | Only the flags byte changes, and it becomes the value given. |
| Context.BasicCPUContext.SetRegA | core6502/context.go:93-95 | Only A changes; RAM is untouched. |
| Context.BasicCPUContext.SetRegX | core6502/context.go:97-99 | Only X changes; RAM is untouched. |
| Context.BasicCPUContext.SetRegY | core6502/context.go:101-103 | Only Y changes; RAM is untouched. |
| Context.BasicCPUContext.SetRegSP | core6502/context.go:105-107 | Only SP changes; RAM is untouched. |
| Context.BasicCPUContext.SetRegPC | core6502/context.go:109-111 | Only PC changes; RAM is untouched. |
| Context.BasicCPUContext.Peek | core6502/context.go:113-115 | Returns the RAM byte at the address. Every 16-bit address lies in RAM. `Poke` reads back through it. |
| Context.BasicCPUContext.Poke | core6502/context.go:113-119 | The RAM becomes the old RAM with one byte replaced. `Peek` at that address then gives the value, every other address reads as before, and the registers are untouched. |
| Context.BasicCPUContext.PeekWord | core6502/context.go:121-125 | Reads the byte at `addr` plus 256 times the byte at `addr + 1`. The second address wraps to 0 after 0xFFFF. |
| Context.BasicCPUContext.PokeWord | core6502/context.go:127-130 | Writes the low byte at `addr` and the high byte at `addr + 1` (wrapping). `PeekWord` then reads the word back. |
| AddressModes.OperandAddress | core6502/addressmode.go:7 | The operand byte is at PC + 1, modulo 65536. |
| AddressModes.ZeroPageAddress | core6502/addressmode.go:12 | The zero-page address is the operand byte, so it is always below 0x100. |
| AddressModes.ZeroPageIndexedAddress | core6502/addressmode.go:34 | The operand byte plus the index register is computed modulo 256, so the address never leaves page zero. |
| AddressModes.AbsoluteAddress | core6502/addressmode.go:23 | The address is the little-endian word in the bytes at PC + 1 and PC + 2. |
| AddressModes.ReadImmediate | core6502/addressmode.go:6-8 | Returns the byte at PC + 1 and 0 extra cycles. |
| AddressModes.ReadAbsoluteZeroPage | core6502/addressmode.go:11-13 | Returns the byte at the zero-page address and 0 extra cycles. |
| AddressModes.WriteAbsoluteZeroPage | core6502/addressmode.go:16-19 | Returns (0, 0). Only the byte at the zero-page address changes, and no register. Reading the same mode back gives the value, unless the write hit the operand byte itself. |
| AddressModes.ReadAbsolute | core6502/addressmode.go:22-24 | Returns the byte at the absolute address and 0 extra cycles. |
| AddressModes.WriteAbsolute | core6502/addressmode.go:27-30 | Returns (0, 0). Only the byte at the absolute address changes. Reading it back gives the value, unless the write hit one of the two operand bytes. |
| AddressModes.ReadZeroPageIdxX | core6502/addressmode.go:33-35 | Returns the byte at (operand + X) mod 256. |
| AddressModes.WriteZeroPageIdxX | core6502/addressmode.go:38-41 | Returns (0, 0). Only the byte at (operand + X) mod 256 changes. It reads back unless it is the operand byte. |
| AddressModes.ReadZeroPageIdxY | core6502/addressmode.go:44-46 | Returns the byte at (operand + Y) mod 256. |
| AddressModes.WriteZeroPageIdxY | core6502/addressmode.go:49-52 | Returns (0, 0). Only the byte at (operand + Y) mod 256 changes. It reads back unless it is the operand byte. |
| AddressModes.ReadResolversIgnoreValue | core6502/addressmode.go:6-46 | The value passed to a Read resolver does not affect its result. |
| InstructionExec.FlagsFromValue | core6502/instructionexec.go:3-7 | Z is set iff the value is zero, and N iff bit 7 of the value is set. Every other flag bit is kept. |
| InstructionExec.SetFlagsFromValue | core6502/instructionexec.go:3-7 | Returns the value. Only the flags change, as `FlagsFromValue` says. |
| InstructionExec.ExecLdaImmediate | core6502/instructionexec.go:16-19 | A gets the byte at addr + 1, Z/N follow A and PC becomes addr + 2. No other register and no RAM changes. |
| InstructionExec.ExecLdaZeroPage | core6502/instructionexec.go:21-24 | A gets the byte at the zero-page address stored at addr + 1. Z/N follow A and PC becomes addr + 2. Nothing else changes. |
| InstructionExec.ExecutorsTable | core6502/instructionexec.go:11-14 | The executor table holds LDA immediate at index 0 and LDA zero page at index 1. |
| InstructionExec.Execute | core6502/instructionexec.go:9-14 | Running an entry of the executor table has that executor's effect. |
| Primitives.ToInt8 | core6502/primatives.go:4 | `int8(v)` lies in -128..127 and equals `v` modulo 256. |
| Primitives.SignExtend8To16 | core6502/primatives.go:3-5 | A byte below 0x80 is kept; a byte of 0x80 or more gains 0xFF as its high byte. |
| Primitives.AddWithCarry8 | core6502/primatives.go:7-18 | A carry passed in is always passed out. |
| Primitives.AddWithCarry8ResultByte | core6502/primatives.go:7-18 | The result byte is (a + b + carry) mod 256. |
| Primitives.AddWithCarry8CarryOut | core6502/primatives.go:7-18 | The carry out is the carry in, or the signed sum being negative. |
| Primitives.AddWithCarry8MeetsTestRows | core6502/primatives_test.go:49-56 | The code meets rows 1, 4, 7 and 8 of the test table. |
| Primitives.AddWithCarry8MissesTestCarries | core6502/primatives_test.go:50-54 | On rows 2, 3, 5 and 6 of the test table the code gives the wrong carry. |
| Primitives.AddWithCarry8Unsigned | core6502/primatives.go:7-18 | The corrected addition: the result byte plus 256 times the carry out is exactly a + b + carry. |
| Primitives.AddWithCarry8SameResultByte | core6502/primatives.go:7-18 | The corrected and as-written additions give the same result byte. |
| Primitives.AddWithCarry8UnsignedMeetsTestTable | core6502/primatives_test.go:49-56 | The corrected addition meets all eight rows of the test table. |
| Primitives.SubWithCarry8 | core6502/primatives.go:20-31 | A carry passed in is always passed out. |
| Primitives.SubWithCarry8ResultByte | core6502/primatives.go:20-31 | The result byte is (a - b - carry) mod 256. |
| Primitives.SubWithCarry8CarryOut | core6502/primatives.go:20-31 | The carry out is the carry in, or the signed difference being negative. |
| Primitives.SubWithCarry8TestTable | core6502/primatives_test.go:63 | The code meets the test row: 0x10 - 0x10 gives (0, no carry). |
| Primitives.LogicalShiftLeft8 | core6502/primatives.go:34-45 | The result byte is (2a + carry) mod 256. The carry out is the carry in or bit 7 of a. Without a carry in, byte and carry together are exactly 2a. |
| Primitives.LogicalShiftRight8 | core6502/primatives.go:48-59 | Twice the result plus bit 0 of a equals a plus 256 times the carry in, so the carry in becomes bit 7. The carry out is the carry in or bit 0 of a. |
| Primitives.ArithmeticShiftRight8 | core6502/primatives.go:62-71 | The result is a / 2 with bit 7 of a kept. The carry out is bit 0 of a. |
| ParseUtils.TrimLeft | core6502/parseutils.go:10 | Removes exactly the leading spaces and tabs. |
| ParseUtils.TrimRight | core6502/parseutils.go:10 | Removes exactly the trailing spaces and tabs. |
| ParseUtils.Trim | core6502/parseutils.go:10 | The result is a slice of the input that neither starts nor ends with a blank. Everything cut off on either side is blank. |
| ParseUtils.TrimKeepsUnpadded | core6502/parseutils.go:27 | Text that does not start or end with a blank is left unchanged. |
| ParseUtils.MaxUint | core6502/parseutils.go:35 | The largest `bits`-bit number is 2^bits - 1. |
| ParseUtils.StrconvParseUint | core6502/parseutils.go:35-38 | A bad bit size is reported iff the text is non-empty and the size is outside 0..64. A success lies in 0..2^bits - 1. A range error returns the largest value. |
| ParseUtils.StrconvParseInt | core6502/parseutils.go:18-21 | Never reports empty input; that error belongs to the wrapper. |
| ParseUtils.SignedRangeCheck | core6502/parseutils.go:18-21 | Only succeeds or reports a range error. |
| ParseUtils.ParseInt | core6502/parseutils.go:9-24 | Returns (0, empty input) exactly when the trimmed text is empty. |
| ParseUtils.ParseUint | core6502/parseutils.go:26-41 | Returns (0, empty input) exactly when the trimmed text is empty. On success the bit size is in 0..64 and the value fits in it. |
| ParseUtils.ScanCorrect | core6502/parseutils.go:35-38 | The digit scan succeeds iff every character is a digit of the base and the value stays within the maximum. It then returns that value (Horner's rule). |
| ParseUtils.TotalIsPositional | core6502/parseutils.go:35-38 | Horner's evaluation equals the positional value of the digits. |
| ParseUtils.UnsignedMagnitude | core6502/parseutils.go:18-21 | The unsigned parse of a magnitude succeeds iff it is all digits whose value fits, and it then returns that value. |
| ParseUtils.SignedCheckCorrect | core6502/parseutils.go:18-21 | After an unsigned parse, the signed check succeeds iff the signed value lies in -2^(bits-1)..2^(bits-1)-1, and it then returns that value. |
| ParseUtils.ParseUintCorrect | core6502/parseutils.go:26-41 | ParseUint succeeds iff the trimmed text, less an optional `$`, is a non-empty digit string of the chosen base whose value is below 2^bits. The result is that value. |
| ParseUtils.StrconvParseIntCorrect | core6502/parseutils.go:18-21 | The signed parse succeeds iff an optional sign is followed by non-empty digits whose signed value is in the two's-complement range. The result is that signed value. |
| ParseUtils.ParseIntCorrect | core6502/parseutils.go:9-24 | ParseInt succeeds iff the trimmed text, less an optional `$`, is an optionally signed digit string whose signed value is in range. The result is that value. |
| ParseUtils.LoneDollarIsError | core6502/parseutils.go:17-19 | A lone `$` is an error for both parsers. |
| ParseUtils.BadBitSizeIsError | core6502/parseutils.go:18-38 | A bit size outside 0..64 is an error for both parsers, whatever the text. |
| ParseUtils.ParseUintTestVectors | core6502/parseutils_test.go:18-21 | "1234" parses with 16 bits. With 8 bits it is a range error. |
| Disassembler.TableEntryUnlisted | core6502/disassemble.go:13-20 | An opcode that no instruction row lists keeps the zero entry, whose mode is Invalid. |
| Disassembler.TableEntryLastWins | core6502/disassemble.go:15-20 | For an opcode listed more than once, the last row wins. |
| Disassembler.BuildDisasmTable | core6502/disassemble.go:15-20 | The filled table holds, for every opcode, the entry `TableEntry` gives. |
| Disassembler.HexDigit | core6502/disassemble.go:25 | A lower-case hex digit whose digit value is the number. |
| Disassembler.Hex2 | core6502/disassemble.go:25 | `%02x`: exactly two digits, each `0`-`9` or a lower-case `a`-`f`, whose hexadecimal value is the byte. |
| Disassembler.Hex4 | core6502/disassemble.go:29 | `%04x`: exactly four digits, each `0`-`9` or a lower-case `a`-`f`, whose hexadecimal value is the word. |
| Disassembler.Decimal | core6502/disassemble.go:47 | `%d`: a non-empty string of decimal digits with no leading zero; a text that starts with `0` is exactly "0". |
| Disassembler.DecimalValue | core6502/disassemble.go:47 | The decimal text has the value it was made from. |
| Disassembler.Hex2ReadsBack | core6502/disassemble.go:25 | `$` and two hex digits parse back to the byte. |
| Disassembler.Hex4ReadsBack | core6502/disassemble.go:29 | `$` and four hex digits parse back to the word. |
| Disassembler.DecimalReadsBack | core6502/disassemble.go:47 | The decimal text of a byte parses back to the byte. |
| Disassembler.OperandTextReadsBack | core6502/disassemble.go:22-48 | In the decorated operand text of any mode with an operand, the number between the decorations parses back to the operand. That operand is the byte at the address, or the word there. |
| Disassembler.OperandNumberReadsBack | core6502/disassemble.go:22-48 | The operand's number text parses back to the operand byte or word. |
| Disassembler.AddressModeToStr | core6502/disassemble.go:22-50 | The source's operand text equals the corrected `OperandText` for every mode except `ZeroPageIdxY`. `OperandTextReadsBack` then says that its number reads back as the operand, and `ZeroPageIdxYListedAsX` gives the one exception. |
| Disassembler.OperandText | core6502/disassemble.go:22-50 | The corrected operand formatter: each mode's decoration around its number, with `, Y` for `ZeroPageIdxY`. Its properties are `OperandTextReadsBack`, `DecorationsDistinguishModes` and the two mode-text lemmas. |
| Disassembler.ByteModeTexts | core6502/disassemble.go:24-47 | Spells out the corrected text of each one-byte mode in 6502 assembler syntax: `#$ff`, `$ff`, `$ff, X`, `$ff, Y`, `($ff, X)`, `($ff), Y`, and the decimal offset. |
| Disassembler.WordModeTexts | core6502/disassemble.go:28-45 | Spells out the corrected text of each two-byte mode: `$ffff`, `$ffff, X`, `$ffff, Y`, `($ffff)`. |
| Disassembler.ListedIndexedTexts | core6502/disassemble.go:32-35 | As written, both zero-page indexed modes print `$ff, X`. |
| Disassembler.CorrectedIndexedYText | core6502/disassemble.go:34-35 | The corrected text of the zero-page Y-indexed mode is `$ff, Y`. |
| Disassembler.ZeroPageIdxYListedAsX | core6502/disassemble.go:32-35 | As written, `$ff, y` prints exactly like `$ff, x`, and so differs from its decorated text. |
| Disassembler.DecorationsDistinguishModes | core6502/disassemble.go:24-45 | With the corrected decorations, any two hexadecimal modes of the same operand width differ. |
| Disassembler.Disassemble | core6502/disassemble.go:52-59 | An invalid entry gives exactly `db  $` and the opcode's two lower-case hex digits, with length 1, and the text after `db  ` parses back to the opcode. A valid entry gives the entry's length, and its text starts with the mnemonic and a space. For every mode but `ZeroPageIdxY` the text is the mnemonic, a space and the corrected operand text read from addr + 1. `DisassembleUnlisted` and `DisassembleListed` tie it to the instruction list. |
| Disassembler.DisassembleUnlisted | core6502/disassemble.go:52-57 | An opcode whose entry is Invalid, including any opcode no row lists, shows as `db  $xx` with length 1. |
| Disassembler.DataDirectiveReadsBack | core6502/disassemble.go:56 | The `db` text is 7 characters, and its hex part parses back to the opcode. |
| Disassembler.DisassembleListed | core6502/disassemble.go:52-58 | For an opcode with a valid entry, the result uses the name and length of the last row listing it. The text is the name, a space, and the operand text read from addr + 1 (wrapping). |
| Commands.SetMemory | commands.go:83-86 | Returns no error. RAM changes at the one address, and no register changes. |
| Commands.StackAddress | commands.go:90 | The stack slot is 0x100 + SP, always in page one. |
| Commands.Push | commands.go:88-93 | Returns no error. The value is stored at the old SP's slot, and SP becomes (SP - 1) mod 256. No other register changes. |
| Commands.SPAfterPushesWraps | commands.go:88-93 | After n pushes, SP is (SP - n) mod 256. |
| Commands.PushesUseDistinctSlots | commands.go:88-93 | Any 256 consecutive pushes write 256 different slots. |
| Commands.PushesWrapAround | commands.go:88-93 | After any multiple of 256 pushes, SP is back where it started. |
| Commands.BlockIsConsecutive | commands.go:95-102 | An address is in the block iff it is start + k (mod 65536) for some k below the count. |
| Commands.InBlockStep | commands.go:96-100 | One more loop step adds exactly the current address to the block. |
| Commands.SetMemoryBlock | commands.go:95-102 | Returns no error. Every address in the block holds the value, every other address keeps its byte, and the registers are unchanged. |
| Commands.SetReg | commands.go:104-116 | "a", "x" and "y" set that register alone. Any other name returns `InvalidRegister` and changes nothing. RAM is untouched. |
| Commands.Split | commands.go:68 | There is always at least one piece, and no piece contains a space. |
| Commands.JoinSplit | commands.go:68 | Joining the pieces with spaces gives the line back. |
| Commands.SplitJoin | commands.go:68 | Splitting a space-joined list of space-free words gives the words back. |
| Commands.CommandTableEntries | commands.go:16-21 | The command table binds exactly `sm`, `sb`, `sr` and `ps`. Each is a non-empty word without spaces, so a line's first word can select it, and no two words share a handler. |
| Commands.Classify | commands.go:63-81 | The line is Quit iff it is "q". A command or unknown line is named by the first piece of `strings.Split(cmd, " ")`. Run only for a first piece in the command table, with that piece's handler, and its arguments are exactly the remaining pieces `parts[1:]`. Unknown only for a non-empty first piece not in the table. |
| Commands.ClassifyWords | commands.go:68-80 | A line does nothing iff it is empty or starts with a space. A command or unknown line is exactly its first word and arguments joined by spaces. |
| Commands.Outcome | commands.go:64-80 | The dispatcher quits only for Quit, and reports an error for a line it answers itself only for an unknown command. That error is `UnknownCommand` carrying the first word of the line. |

## Left out

- `processArgs` and the `handler.Call` dispatch (commands.go:23-61 and 72) pick and convert handler arguments by runtime reflection. The handlers are modelled as typed methods, and `Classify` stops at the handler and its argument words. The dispatcher throws away the value that `handler.Call` returns (commands.go:72), so it returns (false, nil) after every handler. An error a handler reports, such as `SetReg`'s `InvalidRegister`, never reaches the user. The model states those errors on the handlers and does not model that they are dropped.
- The error text of `fmt.Errorf` is not modelled. Errors are the `CommandError` and `NumError` values.
- The Go interface `CPUContext` has one implementation, so the model uses the class `BasicCPUContext` directly.
- The source's `InstructionData` list, its `AddressMode` constants, `HardResetCPU`, and the package's own `core6502.Split` and `TrimRunes*` helpers are in files that are not part of this model. The instruction list is a parameter of `BuildDisasmTable`. The model declares its own `AddressMode` datatype, with `Invalid` standing for the constants' zero value, which the table's default entries rely on. `Commands.Split` models the standard library's `strings.Split(s, " ")` that the dispatcher calls, not `core6502.Split`.
- `instructionexec.go` does not type-check as written: `setFlagsFromValue` returns a `uint8` as `uint`, and `exec_LDA_zeropage` passes a `uint8` to `Peek`. The model returns the byte unchanged and widens the zero-page address to 16 bits, which is evidently what is meant.
- The package-level array that `Disassemble` reads in Go is passed to it as a parameter, as the result of `BuildDisasmTable`.
- ParseUtils.StrconvParseIntCorrect: excludes a bit size of 1. With that size the unsigned parse of the magnitude saturates at 1, which is also the negative cutoff, so Go's `strconv.ParseInt` returns (-1, no error) for "-5"; the two's-complement statement holds from 2 bits up.
- ParseUtils.ParseIntCorrect: excludes a bit size of 1, for the same reason.
- ParseUtils: Go's `strconv` is not part of the source. Its unsigned and signed parsers are modelled from their documented behaviour, for the bases 10 and 16 used here and with 64-bit `int`. Underscore digit separators (base 0 only) and the error messages are left out.
- The result of `ParseInt`/`ParseUint` is an `int`, since the model's integers are unbounded. The Go results are `int64`/`uint64`, and every value that parses fits in them.
- The step/dispatch engine, absolute-indexed, indirect and relative resolvers, page-cross penalties, branches, stack instructions, BRK and decimal mode are not in the source shown, so they are not modelled.
- The assembler stub (`core6502/assemble.go`), the opcode dump tool and the terminal display are I/O or incomplete, and are not modelled.

## Findings

| source | as written | input that shows it | evidently intended | confidence | as-written member | corrected member |
|---|---|---|---|---|---|---|
| core6502/primatives.go:7-18 | The operands are sign-extended to 16 bits, and the carry is set when the 16-bit result exceeds 0xFF. A carry passed in is never cleared. | `AddWithCarry8(0xff, 0x00, false)` gives `(0xff, true)`; the package's own test table (core6502/primatives_test.go:50) expects `(0xff, false)`. Rows at lines 51, 53 and 54 differ too. | The carry out is the ninth bit of the unsigned sum a + b + carry, as all eight test rows expect. | not executed | Primitives.AddWithCarry8MissesTestCarries | Primitives.AddWithCarry8Unsigned |
| core6502/disassemble.go:34-35 | The zero-page Y-indexed mode is formatted as `$%02x, X`. | Any byte: `AddressModeToStr(ZeroPageIdxY, ctx, addr) == AddressModeToStr(ZeroPageIdxX, ctx, addr)`. | `$%02x, Y`: each mode's operand is shown in its own assembler syntax. | not executed | Disassembler.ZeroPageIdxYListedAsX | Disassembler.OperandText |

=== FILE: addressmode.dfy ===
/**
 * Addressing-mode resolvers. Each takes the context and a value and returns
 * a byte and a count of extra cycles. The Read resolvers ignore the value
 * and change nothing; the Write resolvers store the value at the effective
 * address and return (0, 0). Operand bytes follow the opcode at PC.
 */
module AddressModes {
  import opened Context

  /** Address of the first operand byte: PC + 1, wrapping at 0xFFFF. */
  function OperandAddress(ctx: BasicCPUContext): (addr: u16)
    reads ctx
    ensures addr as int == (ctx.pc as int + 1) % 0x10000
  {
    Wrap16(ctx.RegPC() as int + 1)
  }

  /** `$ff`: the operand byte widened to 16 bits, so always in page zero. */
  function ZeroPageAddress(ctx: BasicCPUContext): (ea: u16)
    requires ctx.Valid()
    reads ctx, ctx.ram
    ensures ea < 0x100
    ensures ea as int == ctx.ram[OperandAddress(ctx)] as int
  {
    ctx.Peek(OperandAddress(ctx)) as u16
  }

  /** `$ff, x` and `$ff, y`: the operand byte plus the index register, added
    * as uint8 (so wrapping inside page zero) and then widened. */
  function ZeroPageIndexedAddress(ctx: BasicCPUContext, index: u8): (ea: u16)
    requires ctx.Valid()
    reads ctx, ctx.ram
    ensures ea < 0x100
    ensures ea as int == (ctx.ram[OperandAddress(ctx)] as int + index as int) % 0x100
  {
    Wrap8(ctx.Peek(OperandAddress(ctx)) as int + index as int) as u16
  }

  /** `$ffff`: the little-endian word in the two operand bytes. */
  function AbsoluteAddress(ctx: BasicCPUContext): (ea: u16)
    requires ctx.Valid()
    reads ctx, ctx.ram
    ensures ea as int == ctx.ram[OperandAddress(ctx)] as int
                         + 0x100 * ctx.ram[Wrap16(ctx.pc as int + 2)] as int
  {
    ctx.PeekWord(OperandAddress(ctx))
  }

  /** `#$ff`: the operand byte itself. */
  function ReadImmediate(ctx: BasicCPUContext, val: u8): (r: (u8, int))
    requires ctx.Valid()
    reads ctx, ctx.ram
    ensures r == (ctx.ram[OperandAddress(ctx)], 0)
  {
    (ctx.Peek(OperandAddress(ctx)), 0)
  }

  function ReadAbsoluteZeroPage(ctx: BasicCPUContext, val: u8): (r: (u8, int))
    requires ctx.Valid()
    reads ctx, ctx.ram
    ensures r == (ctx.ram[ZeroPageAddress(ctx)], 0)
  {
    (ctx.Peek(ctx.Peek(OperandAddress(ctx)) as u16), 0)
  }

  method WriteAbsoluteZeroPage(ctx: BasicCPUContext, val: u8) returns (r: u8, cycles: int)
    requires ctx.Valid()
    modifies ctx.ram
    ensures (r, cycles) == (0, 0)
    ensures ctx.ram[..] == old(ctx.ram[..])[old(ZeroPageAddress(ctx)) := val]
    ensures ctx.Regs() == old(ctx.Regs())
    ensures old(ZeroPageAddress(ctx)) != OperandAddress(ctx) ==> ReadAbsoluteZeroPage(ctx, val) == (val, 0)
  {
    ctx.Poke(ctx.Peek(OperandAddress(ctx)) as u16, val);
    return 0, 0;
  }

  function ReadAbsolute(ctx: BasicCPUContext, val: u8): (r: (u8, int))
    requires ctx.Valid()
    reads ctx, ctx.ram
    ensures r == (ctx.ram[AbsoluteAddress(ctx)], 0)
  {
    (ctx.Peek(ctx.PeekWord(OperandAddress(ctx))), 0)
  }

  method WriteAbsolute(ctx: BasicCPUContext, val: u8) returns (r: u8, cycles: int)
    requires ctx.Valid()
    modifies ctx.ram
    ensures (r, cycles) == (0, 0)
    ensures ctx.ram[..] == old(ctx.ram[..])[old(AbsoluteAddress(ctx)) := val]
    ensures ctx.Regs() == old(ctx.Regs())
    ensures (old(AbsoluteAddress(ctx)) != OperandAddress(ctx) &&
             old(AbsoluteAddress(ctx)) != Wrap16(ctx.pc as int + 2)) ==> ReadAbsolute(ctx, val) == (val, 0)
  {
    ctx.Poke(ctx.PeekWord(OperandAddress(ctx)), val);
    return 0, 0;
  }

  function ReadZeroPageIdxX(ctx: BasicCPUContext, val: u8): (r: (u8, int))
    requires ctx.Valid()
    reads ctx, ctx.ram
    ensures r == (ctx.ram[ZeroPageIndexedAddress(ctx, ctx.x)], 0)
  {
    (ctx.Peek(Wrap8(ctx.Peek(OperandAddress(ctx)) as int + ctx.RegX() as int) as u16), 0)
  }

  method WriteZeroPageIdxX(ctx: BasicCPUContext, val: u8) returns (r: u8, cycles: int)
    requires ctx.Valid()
    modifies ctx.ram
    ensures (r, cycles) == (0, 0)
    ensures ctx.ram[..] == old(ctx.ram[..])[old(ZeroPageIndexedAddress(ctx, ctx.x)) := val]
    ensures ctx.Regs() == old(ctx.Regs())
    ensures old(ZeroPageIndexedAddress(ctx, ctx.x)) != OperandAddress(ctx) ==> ReadZeroPageIdxX(ctx, val) == (val, 0)
  {
    ctx.Poke(Wrap8(ctx.Peek(OperandAddress(ctx)) as int + ctx.RegX() as int) as u16, val);
    return 0, 0;
  }

  function ReadZeroPageIdxY(ctx: BasicCPUContext, val: u8): (r: (u8, int))
    requires ctx.Valid()
    reads ctx, ctx.ram
    ensures r == (ctx.ram[ZeroPageIndexedAddress(ctx, ctx.y)], 0)
  {
    (ctx.Peek(Wrap8(ctx.Peek(OperandAddress(ctx)) as int + ctx.RegY() as int) as u16), 0)
  }

  method WriteZeroPageIdxY(ctx: BasicCPUContext, val: u8) returns (r: u8, cycles: int)
    requires ctx.Valid()
    modifies ctx.ram
    ensures (r, cycles) == (0, 0)
    ensures ctx.ram[..] == old(ctx.ram[..])[old(ZeroPageIndexedAddress(ctx, ctx.y)) := val]
    ensures ctx.Regs() == old(ctx.Regs())
    ensures old(ZeroPageIndexedAddress(ctx, ctx.y)) != OperandAddress(ctx) ==> ReadZeroPageIdxY(ctx, val) == (val, 0)
  {
    ctx.Poke(Wrap8(ctx.Peek(OperandAddress(ctx)) as int + ctx.RegY() as int) as u16, val);
    return 0, 0;
  }

  /** The Read resolvers depend on the context only: the value passed in is
    * ignored. */
  lemma ReadResolversIgnoreValue(ctx: BasicCPUContext, v1: u8, v2: u8)
    requires ctx.Valid()
    ensures ReadImmediate(ctx, v1) == ReadImmediate(ctx, v2)
    ensures ReadAbsoluteZeroPage(ctx, v1) == ReadAbsoluteZeroPage(ctx, v2)
    ensures ReadAbsolute(ctx, v1) == ReadAbsolute(ctx, v2)
    ensures ReadZeroPageIdxX(ctx, v1) == ReadZeroPageIdxX(ctx, v2)
    ensures ReadZeroPageIdxY(ctx, v1) == ReadZeroPageIdxY(ctx, v2)
  {
  }
}

=== FILE: commands.dfy ===
/**
 * The debugger's command line: a line is split at spaces, "q" quits, an
 * empty first word does nothing, a known first word selects a handler and
 * any other first word is an unknown command. The four handlers poke
 * memory, fill a block, set a register and push onto the stack.
 */
module Commands {
  import opened Context

  datatype Option<T> = None | Some(value: T)

  /** The errors the handlers and the dispatcher report themselves. */
  datatype CommandError = InvalidRegister(reg: string) | UnknownCommand(name: string)

  // ---------------------------------------------------------------- handlers

  /** `sm <address> <value>`: store one byte. */
  method SetMemory(ctx: BasicCPUContext, addr: u16, val: u8) returns (err: Option<CommandError>)
    requires ctx.Valid()
    modifies ctx.ram
    ensures err == None
    ensures ctx.ram[..] == old(ctx.ram[..])[addr := val]
    ensures ctx.Regs() == old(ctx.Regs())
  {
    ctx.Poke(addr, val);
    return None;
  }

  /** The stack lives in page one: the slot for SP value `sp`. */
  function StackAddress(sp: u8): (a: u16)
    ensures 0x100 <= a <= 0x1FF
    ensures Lo(a) == sp && Hi(a) == 1
  {
    (0x100 + sp as int) as u16
  }

  /** `ps <value>`: store at the stack slot, then move SP
    * down one, wrapping from 0x00 to 0xFF. */
  method Push(ctx: BasicCPUContext, val: u8) returns (err: Option<CommandError>)
    requires ctx.Valid()
    modifies ctx, ctx.ram
    ensures err == None
    ensures ctx.ram[..] == old(ctx.ram[..])[StackAddress(old(ctx.sp)) := val]
    ensures ctx.Regs() == old(ctx.Regs()).(sp := Wrap8(old(ctx.sp) as int - 1))
  {
    var sp := ctx.RegSP();
    ctx.Poke(StackAddress(sp), val);
    ctx.SetRegSP(Wrap8(sp as int - 1));
    return None;
  }

  /** SP after `n` pushes starting from `sp`. */
  function SPAfterPushes(sp: u8, n: nat): u8
    decreases n
  {
    if n == 0 then sp else SPAfterPushes(Wrap8(sp as int - 1), n - 1)
  }

  /** Each push lowers SP by one modulo 256. */
  lemma {:induction false} SPAfterPushesWraps(sp: u8, n: nat)
    ensures SPAfterPushes(sp, n) as int == (sp as int - n) % 0x100
    decreases n
  {
    if n > 0 {
      SPAfterPushesWraps(Wrap8(sp as int - 1), n - 1);
      OnePush(sp, n);
    }
  }

  lemma OnePush(sp: u8, n: int)
    ensures (Wrap8(sp as int - 1) as int - (n - 1)) % 0x100 == (sp as int - n) % 0x100
  {
    var j := if sp == 0 then 1 else 0;
    assert Wrap8(sp as int - 1) as int - (n - 1) == (sp as int - n) + j * 0x100;
    ModShift(sp as int - n, j);
  }

  /** 256 consecutive pushes use 256 different stack slots. */
  lemma PushesUseDistinctSlots(sp: u8, i: nat, j: nat)
    requires i < j < 0x100
    ensures StackAddress(SPAfterPushes(sp, i)) != StackAddress(SPAfterPushes(sp, j))
  {
    SPAfterPushesWraps(sp, i);
    SPAfterPushesWraps(sp, j);
    var a, b := SPAfterPushes(sp, i) as int, SPAfterPushes(sp, j) as int;
    var qa, qb := (sp as int - i) / 0x100, (sp as int - j) / 0x100;
    assert sp as int - i == qa * 0x100 + a;
    assert sp as int - j == qb * 0x100 + b;
    assert j - i == (qa - qb) * 0x100 + (a - b);
  }

  /** After any multiple of 256 pushes SP is back where it
    * started. */
  lemma PushesWrapAround(sp: u8, n: nat)
    requires n % 0x100 == 0
    ensures SPAfterPushes(sp, n) == sp
  {
    SPAfterPushesWraps(sp, n);
    FullTurns(sp as int, n);
  }

  lemma FullTurns(x: int, n: int)
    requires 0 <= x < 0x100 && n % 0x100 == 0
    ensures (x - n) % 0x100 == x
  {
    ModShift(x, 0 - n / 0x100);
  }

  /** Address `i` lies in the block of `n` bytes from `start`, counted
    * upwards and wrapping from 0xFFFF to 0x0000. */
  ghost predicate InBlock(start: u16, n: nat, i: u16)
  {
    (i as int - start as int) % 0x10000 < n
  }

  /** The address `k` bytes into a block from `start`. */
  function BlockAddress(start: u16, k: nat): u16
  {
    Wrap16(start as int + k)
  }

  /** The block is exactly the addresses `start + k` for `k < n`. */
  lemma BlockIsConsecutive(start: u16, n: nat, i: u16)
    ensures InBlock(start, n, i) <==> exists k :: 0 <= k < n && BlockAddress(start, k) == i
  {
    var d := (i as int - start as int) % 0x10000;
    OffsetOfBlockAddress(start, d);
    if k :| 0 <= k < n && BlockAddress(start, k) == i {
      OffsetOfBlockAddress(start, k);
      assert k == (k / 0x10000) * 0x10000 + k % 0x10000;
    }
  }

  /** The address `k` bytes into the block is `k` modulo 65536 bytes past
    * its start. */
  lemma OffsetOfBlockAddress(start: u16, k: nat)
    ensures (BlockAddress(start, k) as int - start as int) % 0x10000 == k % 0x10000
  {
    var q := (start as int + k) / 0x10000;
    assert BlockAddress(start, k) as int - start as int == k + (0 - q) * 0x10000;
    var r := k / 0x10000;
    assert k + (0 - q) * 0x10000 == (r - q) * 0x10000 + k % 0x10000;
  }

  /** Growing the block by one adds exactly the next address. */
  lemma InBlockStep(start: u16, n: nat, next: u16)
    requires n < 0x10000 && next as int == (start as int + n) % 0x10000
    ensures forall i: u16 :: InBlock(start, n + 1, i) <==> InBlock(start, n, i) || i == next
  {
    forall i: u16
      ensures InBlock(start, n + 1, i) <==> InBlock(start, n, i) || i == next
    {
      var d := (i as int - start as int) % 0x10000;
      assert d == n <==> i == next;
    }
  }

  /** `sb <address> <count> <value>`: store the value in `count` bytes from
    * `addr` upwards, wrapping at the top of memory. */
  method SetMemoryBlock(ctx: BasicCPUContext, addr: u16, count: u16, val: u8) returns (err: Option<CommandError>)
    requires ctx.Valid()
    modifies ctx.ram
    ensures err == None
    ensures forall i: u16 :: ctx.Peek(i) == if InBlock(addr, count as nat, i) then val else old(ctx.Peek(i))
    ensures ctx.Regs() == old(ctx.Regs())
  {
    var a, c := addr, count;
    while c != 0
      invariant c <= count
      invariant a as int == (addr as int + (count - c) as int) % 0x10000
      invariant forall i: u16 :: ctx.Peek(i) == if InBlock(addr, (count - c) as nat, i) then val else old(ctx.Peek(i))
      decreases c
    {
      InBlockStep(addr, (count - c) as nat, a);
      ctx.Poke(a, val);
      a := Wrap16(a as int + 1);
      c := c - 1;
    }
    return None;
  }

  /** `sr <reg> <value>`: set A, X or Y; any other register name is an
    * error and changes nothing. */
  method SetReg(ctx: BasicCPUContext, reg: string, val: u8) returns (err: Option<CommandError>)
    modifies ctx
    ensures reg == "a" ==> err == None && ctx.Regs() == old(ctx.Regs()).(a := val)
    ensures reg == "x" ==> err == None && ctx.Regs() == old(ctx.Regs()).(x := val)
    ensures reg == "y" ==> err == None && ctx.Regs() == old(ctx.Regs()).(y := val)
    ensures reg != "a" && reg != "x" && reg != "y" ==>
              err == Some(InvalidRegister(reg)) && ctx.Regs() == old(ctx.Regs())
    ensures unchanged(ctx.ram)
  {
    if reg == "a" {
      ctx.SetRegA(val);
    } else if reg == "x" {
      ctx.SetRegX(val);
    } else if reg == "y" {
      ctx.SetRegY(val);
    } else {
      return Some(InvalidRegister(reg));
    }
    return None;
  }

  // ----------------------------------------------------------- command line

  /** `strings.Split(s, " ")`: the pieces between single spaces; an empty
    * string gives one empty piece, and adjacent spaces give empty pieces. */
  function Split(s: string): (parts: seq<string>)
    ensures |parts| >= 1
    ensures forall p :: p in parts ==> ' ' !in p
  {
    if s == [] then [[]]
    else
      var rest := Split(s[1..]);
      if s[0] == ' ' then [[]] + rest
      else [[s[0]] + rest[0]] + rest[1..]
  }

  /** `strings.Join(parts, " ")`. */
  function Join(parts: seq<string>): string
    requires |parts| >= 1
  {
    if |parts| == 1 then parts[0] else parts[0] + " " + Join(parts[1..])
  }

  /** Splitting loses nothing: joining the pieces gives the line back. */
  lemma {:induction false} JoinSplit(s: string)
    ensures Join(Split(s)) == s
    decreases |s|
  {
    if s != [] {
      var rest := Split(s[1..]);
      JoinSplit(s[1..]);
      if s[0] == ' ' {
        assert ([[]] + rest)[1..] == rest;
      } else {
        var parts := [[s[0]] + rest[0]] + rest[1..];
        if |rest| > 1 {
          assert parts[1..] == rest[1..];
        }
      }
    }
  }

  /** A word without spaces is one piece. */
  lemma {:induction false} SplitWord(w: string)
    requires ' ' !in w
    ensures Split(w) == [w]
    decreases |w|
  {
    if w != [] {
      assert w[0] in w;
      SplitWord(w[1..]);
      assert [w[0]] + w[1..] == w;
    }
  }

  /** A word followed by a space is the first piece, then the rest is split. */
  lemma {:induction false} SplitAfterWord(w: string, t: string)
    requires ' ' !in w
    ensures Split(w + " " + t) == [w] + Split(t)
    decreases |w|
  {
    if w == [] {
      assert w + " " + t == [' '] + t;
      assert ([' '] + t)[1..] == t;
    } else {
      var s := w + " " + t;
      assert s[0] == w[0] && w[0] != ' ';
      assert s[1..] == w[1..] + " " + t;
      SplitAfterWord(w[1..], t);
      assert [w[0]] + w[1..] == w;
      assert ([w[1..]] + Split(t))[1..] == Split(t);
    }
  }

  /** Joining words without spaces and splitting again gives the words. */
  lemma {:induction false} SplitJoin(parts: seq<string>)
    requires |parts| >= 1 && forall p :: p in parts ==> ' ' !in p
    ensures Split(Join(parts)) == parts
    decreases |parts|
  {
    if |parts| == 1 {
      SplitWord(parts[0]);
    } else {
      SplitJoin(parts[1..]);
      SplitAfterWord(parts[0], Join(parts[1..]));
      assert [parts[0]] + parts[1..] == parts;
    }
  }

  /** The handlers of the command table. */
  datatype Handler = SetMemoryCmd | SetBlockCmd | SetRegCmd | PushCmd

  /** The command table, by first word. */
  const CommandTable: map<string, Handler> :=
    map["sm" := SetMemoryCmd, "sb" := SetBlockCmd, "sr" := SetRegCmd, "ps" := PushCmd]

  /** The table binds the four command words `sm`, `sb`, `sr` and `ps`. Each is
    * a single non-empty word, so the first word of a line can select it,
    * and no two words share a handler. */
  lemma CommandTableEntries()
    ensures CommandTable.Keys == {"sm", "sb", "sr", "ps"}
    ensures forall w :: w in CommandTable ==> w != [] && ' ' !in w
    ensures forall w1, w2 :: w1 in CommandTable && w2 in CommandTable && w1 != w2 ==>
              CommandTable[w1] != CommandTable[w2]
  {
  }

  /** What the dispatcher does with a line: quit, nothing, report an
    * unknown command, or run a handler on the remaining words. */
  datatype Dispatch = Quit | Idle | Unknown(name: string) | Run(handler: Handler, name: string, args: seq<string>)

  /** The branching of the dispatcher. */
  function Classify(cmd: string): (d: Dispatch)
    ensures d == Quit <==> cmd == "q"
    ensures d.Run? ==> d.name in CommandTable && d.handler == CommandTable[d.name]
    ensures d.Unknown? ==> d.name != [] && d.name !in CommandTable
    ensures d.Run? || d.Unknown? ==> d.name == Split(cmd)[0]
    ensures d.Run? ==> d.args == Split(cmd)[1..]
  {
    if cmd == "q" then Quit
    else
      var parts := Split(cmd);
      if parts[0] == [] then Idle
      else if parts[0] in CommandTable then Run(CommandTable[parts[0]], parts[0], parts[1..])
      else Unknown(parts[0])
  }

  /** A line that is empty or starts with a space does nothing; every other
    * line other than "q" names a command by its first word, and a command
    * line is exactly its name and arguments joined by spaces. */
  lemma ClassifyWords(cmd: string)
    ensures Classify(cmd) == Idle <==> cmd == [] || cmd[0] == ' '
    ensures Classify(cmd).Run? ==> Join([Classify(cmd).name] + Classify(cmd).args) == cmd
    ensures Classify(cmd).Unknown? ==> Join([Classify(cmd).name] + Split(cmd)[1..]) == cmd
  {
    if cmd != "q" {
      var parts := Split(cmd);
      JoinSplit(cmd);
      assert [parts[0]] + parts[1..] == parts;
      if cmd != [] && cmd[0] != ' ' {
        assert parts[0] != [];
      }
    }
  }

  /** The result the dispatcher returns for the lines it answers itself:
    * quit with no error, nothing, or an unknown-command error. */
  function Outcome(d: Dispatch): (r: (bool, Option<CommandError>))
    requires !d.Run?
    ensures r.0 <==> d == Quit
    ensures r.1.Some? <==> d.Unknown?
    ensures d.Unknown? ==> r.1 == Some(UnknownCommand(d.name))
  {
    match d
    case Quit => (true, None)
    case Idle => (false, None)
    case Unknown(name) => (false, Some(UnknownCommand(name)))
  }
}

=== FILE: context.dfy ===
/**
 * Machine state of the 6502 emulator: five 8-bit registers, a 16-bit
 * program counter and 64K of RAM, with byte and little-endian word access.
 * Go's uint8/uint16 values are the newtypes u8/u16 with explicit wrap-around;
 * the flags byte, which is only ever masked, is a bv8.
 */
module Context {

  /** Masks for the flag register, low bit to high (Go's `1 << iota`). */
  const FlagC: bv8 := 0x01       // carry
  const FlagZ: bv8 := 0x02       // zero
  const FlagI: bv8 := 0x04       // IRQ disable
  const FlagD: bv8 := 0x08       // decimal mode
  const FlagB: bv8 := 0x10       // break command
  const FlagUnused: bv8 := 0x20  // not used
  const FlagV: bv8 := 0x40       // overflow
  const FlagN: bv8 := 0x80       // negative

  /** The three interrupt vectors: ordinary memory cells. */
  const VectorNMI: u16 := 0xFFFA
  const VectorRST: u16 := 0xFFFC
  const VectorIRQ: u16 := 0xFFFE

  /** Size of the RAM: the whole 16-bit address space. */
  const MemSize: nat := 0x10000

  /** The flag masks in declaration order. */
  function FlagMask(i: nat): (m: bv8)
    requires i < 8
    ensures m == 1 << i
  {
    [FlagC, FlagZ, FlagI, FlagD, FlagB, FlagUnused, FlagV, FlagN][i]
  }

  /** The eight masks are pairwise disjoint and together cover the byte. */
  lemma FlagMasksPartitionByte()
    ensures forall i, j :: 0 <= i < j < 8 ==> FlagMask(i) & FlagMask(j) == 0
    ensures FlagC | FlagZ | FlagI | FlagD | FlagB | FlagUnused | FlagV | FlagN == 0xFF
  {
    forall i, j | 0 <= i < j < 8
      ensures FlagMask(i) & FlagMask(j) == 0
    {
      assert FlagMask(i) == 1 << i && FlagMask(j) == 1 << j;
    }
  }

  /** The flags byte after `SetFlag(mask, val)`: the bits of `mask` all set
    * or all cleared, every other bit as before. */
  function WithFlag(flags: bv8, mask: bv8, val: bool): (r: bv8)
    ensures r & mask == (if val then mask else 0)
    ensures r & !mask == flags & !mask
  {
    if val then flags | mask else flags & !mask
  }

  /** Go's uint8 and uint16. */
  newtype u8 = x: int | 0 <= x < 0x100
  newtype u16 = x: int | 0 <= x < 0x10000

  /** Go's wrapping uint8 and uint16 arithmetic: `v + d` reduced modulo the width. */
  function Wrap8(v: int): (r: u8)
    ensures r as int == v % 0x100
  {
    (v % 0x100) as u8
  }

  function Wrap16(v: int): (r: u16)
    ensures r as int == v % 0x10000
  {
    (v % 0x10000) as u16
  }

  /** Adding whole multiples of 256 does not change a byte. */
  lemma ModShift(x: int, j: int)
    ensures (x + j * 0x100) % 0x100 == x % 0x100
  {
    var q := x / 0x100;
    assert x + j * 0x100 == (q + j) * 0x100 + x % 0x100;
  }

  /** `uint8(w)` and `uint8(w >> 8)`: the low and high byte of a word. */
  function Lo(w: u16): u8 { (w % 0x100) as u8 }
  function Hi(w: u16): u8 { (w / 0x100) as u8 }

  /** `uint16(hi) << 8 | uint16(lo)`: the little-endian word of two bytes. */
  function Word(lo: u8, hi: u8): (w: u16)
    ensures Lo(w) == lo && Hi(w) == hi
  {
    (hi as int * 0x100 + lo as int) as u16
  }

  /** A word is determined by its two bytes. */
  lemma WordOfBytes(w: u16)
    ensures Word(Lo(w), Hi(w)) == w
  {
  }

  /** A snapshot of the register file, used to say which registers a
    * method changes. */
  datatype Registers = Registers(a: u8, x: u8, y: u8, sp: u8, flags: bv8, pc: u16)

  /** The CPU context: registers and 64K RAM. The Go interface `CPUContext`
    * has this one implementation, so the model uses the class directly. */
  class BasicCPUContext {
    var a: u8
    var x: u8
    var y: u8
    var sp: u8
    var flags: bv8
    var pc: u16
    const ram: array<u8>

    ghost predicate Valid()
      reads this
    {
      ram.Length == MemSize
    }

    ghost function Regs(): Registers
      reads this
    {
      Registers(a, x, y, sp, flags, pc)
    }

    /** The Go zero value of the struct: every register and byte is 0. */
    constructor ()
      ensures Valid() && fresh(ram)
      ensures Regs() == Registers(0, 0, 0, 0, 0, 0)
      ensures forall i :: 0 <= i < MemSize ==> ram[i] == 0
    {
      a, x, y, sp, flags, pc := 0, 0, 0, 0, 0, 0;
      ram := new u8[MemSize](_ => 0);
    }

    /** Whether any flag bit of `mask` is set; no bit of an empty mask is. */
    function Flag(mask: bv8): (isSet: bool)
      reads this
      ensures isSet <==> Regs().flags & mask != 0
      ensures mask == 0 ==> !isSet
    {
      flags & mask != 0
    }

    /** The register getters read the register file. */
    function Flags(): (r: bv8) reads this ensures r == Regs().flags { flags }
    function RegA(): (r: u8) reads this ensures r == Regs().a { a }
    function RegX(): (r: u8) reads this ensures r == Regs().x { x }
    function RegY(): (r: u8) reads this ensures r == Regs().y { y }
    function RegSP(): (r: u8) reads this ensures r == Regs().sp { sp }
    function RegPC(): (r: u16) reads this ensures r == Regs().pc { pc }

    /** Sets (val) or clears (!val) exactly the bits of `mask`. */
    method SetFlag(mask: bv8, val: bool)
      modifies this
      ensures Regs() == old(Regs()).(flags := WithFlag(old(flags), mask, val))
      ensures mask != 0 ==> Flag(mask) == val
      ensures forall m :: m & mask == 0 ==> Flag(m) == old(Flag(m))
      ensures unchanged(ram)
    {
      if val {
        flags := flags | mask;
      } else {
        flags := flags & !mask;
      }
    }

    method SetFlags(val: bv8)
      modifies this
      ensures Regs() == old(Regs()).(flags := val) && Flags() == val
      ensures unchanged(ram)
    {
      flags := val;
    }

    method SetRegA(val: u8)
      modifies this
      ensures Regs() == old(Regs()).(a := val) && RegA() == val
      ensures unchanged(ram)
    {
      a := val;
    }

    method SetRegX(val: u8)
      modifies this
      ensures Regs() == old(Regs()).(x := val) && RegX() == val
      ensures unchanged(ram)
    {
      x := val;
    }

    method SetRegY(val: u8)
      modifies this
      ensures Regs() == old(Regs()).(y := val) && RegY() == val
      ensures unchanged(ram)
    {
      y := val;
    }

    method SetRegSP(val: u8)
      modifies this
      ensures Regs() == old(Regs()).(sp := val) && RegSP() == val
      ensures unchanged(ram)
    {
      sp := val;
    }

    method SetRegPC(val: u16)
      modifies this
      ensures Regs() == old(Regs()).(pc := val) && RegPC() == val
      ensures unchanged(ram)
    {
      pc := val;
    }

    /** The RAM byte at `addr`; every 16-bit address is in RAM. */
    function Peek(addr: u16): (v: u8)
      requires Valid()
      reads this, ram
      ensures v == ram[..][addr]
    {
      ram[addr]
    }

    method Poke(addr: u16, val: u8)
      requires Valid()
      modifies ram
      ensures ram[..] == old(ram[..])[addr := val]
      ensures Peek(addr) == val
      ensures forall other: u16 :: other != addr ==> Peek(other) == old(Peek(other))
    {
      ram[addr] := val;
    }

    /** Little-endian: the low byte at `addr`, the high byte at `addr + 1`,
      * which wraps from 0xFFFF to 0x0000. */
    function PeekWord(addr: u16): (w: u16)
      requires Valid()
      reads this, ram
      ensures w as int == Peek(addr) as int + 0x100 * Peek(Wrap16(addr as int + 1)) as int
    {
      Word(Peek(addr), Peek(Wrap16(addr as int + 1)))
    }

    method PokeWord(addr: u16, val: u16)
      requires Valid()
      modifies ram
      ensures ram[..] == old(ram[..])[addr := Lo(val)][Wrap16(addr as int + 1) := Hi(val)]
      ensures PeekWord(addr) == val
    {
      Poke(addr, Lo(val));
      Poke(Wrap16(addr as int + 1), Hi(val));
      WordOfBytes(val);
    }
  }
}

=== FILE: disassemble.dfy ===
/**
 * The disassembler: a 256-entry table of instruction metadata, filled once
 * from the instruction list, and a formatter that renders the instruction at
 * an address as text plus its length in bytes. Formatting only reads the
 * context (it is a function), so it cannot change registers or memory.
 */
module Disassembler {
  import opened Context
  import opened ParseUtils

  /** The addressing modes of the instruction list. `Invalid` is the zero
    * value, so table entries no instruction fills are invalid. */
  datatype AddressMode =
    | Invalid | Implicit | Immediate | AbsoluteZeroPage | ZeroPageIdxX | ZeroPageIdxY
    | PreIndexIndirect | PostIndexIndirect | AbsoluteIndexedX | AbsoluteIndexedY
    | Indirect | Relative | Absolute

  /** One row of the instruction list. */
  datatype InstructionInfo = InstructionInfo(opcode: u8, name: string, length: u16, mode: AddressMode)

  /** One entry of the disassembly table. */
  datatype DisasmInfo = DisasmInfo(name: string, length: u16, mode: AddressMode)

  /** The zero value of a table entry. */
  const ZeroInfo := DisasmInfo("", 0, Invalid)

  function EntryOf(info: InstructionInfo): DisasmInfo
  {
    DisasmInfo(info.name, info.length, info.mode)
  }

  // ------------------------------------------------------------ the table

  /** The entry for `op` once every row of `data` has been stored in order:
    * that of the last row with this opcode, or the zero entry. */
  ghost function TableEntry(data: seq<InstructionInfo>, op: u8): DisasmInfo
  {
    if data == [] then ZeroInfo
    else if data[|data| - 1].opcode == op then EntryOf(data[|data| - 1])
    else TableEntry(data[..|data| - 1], op)
  }

  ghost function DisasmTable(data: seq<InstructionInfo>): (t: seq<DisasmInfo>)
    ensures |t| == 256
  {
    seq(256, i requires 0 <= i < 256 => TableEntry(data, i as u8))
  }

  /** An opcode no row mentions keeps the zero entry. */
  lemma {:induction false} TableEntryUnlisted(data: seq<InstructionInfo>, op: u8)
    requires forall i :: 0 <= i < |data| ==> data[i].opcode != op
    ensures TableEntry(data, op) == ZeroInfo
    decreases |data|
  {
    if data != [] {
      TableEntryUnlisted(data[..|data| - 1], op);
    }
  }

  /** Otherwise the last row with that opcode wins over earlier ones. */
  lemma {:induction false} TableEntryLastWins(data: seq<InstructionInfo>, op: u8, i: nat)
    requires i < |data| && data[i].opcode == op
    requires forall j :: i < j < |data| ==> data[j].opcode != op
    ensures TableEntry(data, op) == EntryOf(data[i])
    decreases |data|
  {
    if i < |data| - 1 {
      TableEntryLastWins(data[..|data| - 1], op, i);
    }
  }

  /** The package initialiser: store each row of the instruction list at its
    * opcode, in list order, in a table that starts all zero. */
  method BuildDisasmTable(data: seq<InstructionInfo>) returns (table: seq<DisasmInfo>)
    ensures table == DisasmTable(data)
  {
    var t := new DisasmInfo[256](_ => ZeroInfo);
    var n := 0;
    while n < |data|
      invariant 0 <= n <= |data|
      invariant forall op: u8 :: t[op] == TableEntry(data[..n], op)
    {
      var info := data[n];
      t[info.opcode] := DisasmInfo(info.name, info.length, info.mode);
      assert data[..n + 1][..n] == data[..n];
      n := n + 1;
    }
    assert data[..n] == data;
    table := t[..];
    assert forall i :: 0 <= i < 256 ==> table[i] == t[i as u8];
  }

  // ------------------------------------------------------ number formatting

  /** The characters `%x` prints: digits and lower-case letters. */
  predicate IsLowerHex(c: char) { '0' <= c <= '9' || 'a' <= c <= 'f' }

  /** A lower-case hexadecimal digit. */
  function HexDigit(k: nat): (c: char)
    requires k < 16
    ensures IsLowerHex(c)
    ensures DigitValue(c) == k
  {
    if k < 10 then ('0' as int + k) as char else ('a' as int + k - 10) as char
  }

  /** `%02x`. */
  function Hex2(b: u8): (s: string)
    ensures |s| == 2 && AllDigits(s, 16)
    ensures forall i :: 0 <= i < |s| ==> IsLowerHex(s[i])
    ensures DigitsValue(s, 16) == b as int
  {
    var s := [HexDigit(b as int / 16), HexDigit(b as int % 16)];
    AppendHexPair([], s);
    s
  }

  /** `%04x`: the high byte's digits, then the low byte's. */
  function Hex4(w: u16): (s: string)
    ensures |s| == 4 && AllDigits(s, 16)
    ensures forall i :: 0 <= i < |s| ==> IsLowerHex(s[i])
    ensures DigitsValue(s, 16) == w as int
  {
    var s := Hex2(Hi(w)) + Hex2(Lo(w));
    AppendHexPair(Hex2(Hi(w)), Hex2(Lo(w)));
    s
  }

  /** Appending two hexadecimal digits multiplies the value by 256. */
  lemma AppendHexPair(s: string, t: string)
    requires |t| == 2
    ensures DigitsValue(t, 16) == DigitValue(t[0]) * 16 + DigitValue(t[1])
    ensures DigitsValue(s + t, 16) == DigitsValue(s, 16) * 256 + DigitsValue(t, 16)
  {
    assert s + t == (s + [t[0]]) + [t[1]];
    DigitsValueAppend(s + [t[0]], t[1], 16);
    DigitsValueAppend(s, t[0], 16);
    assert t == ([] + [t[0]]) + [t[1]];
    DigitsValueAppend([] + [t[0]], t[1], 16);
    DigitsValueAppend([], t[0], 16);
  }

  /** `%d` of a non-negative number: no leading zero. */
  function Decimal(n: nat): (s: string)
    ensures s != [] && AllDigits(s, 10)
    ensures s[0] != ' ' && s[0] != '\t'
    ensures s[0] == '0' ==> s == "0"
  {
    if n < 10 then [('0' as int + n) as char]
    else Decimal(n / 10) + [('0' as int + n % 10) as char]
  }

  /** Decimal text has the value it was made from. */
  lemma {:induction false} DecimalValue(n: nat)
    ensures DigitsValue(Decimal(n), 10) == n
  {
    if n >= 10 {
      DecimalValue(n / 10);
      DigitsValueAppend(Decimal(n / 10), ('0' as int + n % 10) as char, 10);
    }
  }

  /** Digit text, with or without the `$` that selects hexadecimal, reads
    * back through the debugger's own number parser. */
  lemma ReadBack(text: string, bitSize: int)
    requires text != [] && 0 <= bitSize <= 64
    requires Digits(text) != [] && AllDigits(Digits(text), Base(text))
    requires DigitsValue(Digits(text), Base(text)) < Pow(2, BitCount(bitSize))
    ensures ParseUint(text, bitSize) == Parsed(DigitsValue(Digits(text), Base(text)), NoError)
  {
    var d := Digits(text);
    assert DigitValue(text[|text| - 1]) < 16 by {
      assert text[|text| - 1] == d[|d| - 1];
    }
    assert DigitValue(text[0]) < 16 || text[0] == '$';
    TrimKeepsUnpadded(text);
    ParseUintCorrect(text, bitSize);
  }

  lemma Hex2ReadsBack(b: u8)
    ensures ParseUint("$" + Hex2(b), 8) == Parsed(b as int, NoError)
  {
    PowersOfTwo();
    assert Digits("$" + Hex2(b)) == Hex2(b);
    ReadBack("$" + Hex2(b), 8);
  }

  lemma Hex4ReadsBack(w: u16)
    ensures ParseUint("$" + Hex4(w), 16) == Parsed(w as int, NoError)
  {
    PowersOfTwo();
    assert Digits("$" + Hex4(w)) == Hex4(w);
    ReadBack("$" + Hex4(w), 16);
  }

  lemma DecimalReadsBack(b: u8)
    ensures ParseUint(Decimal(b as nat), 8) == Parsed(b as int, NoError)
  {
    PowersOfTwo();
    var s := Decimal(b as nat);
    DecimalValue(b as nat);
    assert s[0] != '$';
    ReadBack(s, 8);
  }

  // --------------------------------------------------------- operand text

  /** The operand text of an instruction whose operand bytes start at `addr`,
    * as the source formats it. The mode `ZeroPageIdxY` is printed with the
    * index register X. */
  function AddressModeToStr(mode: AddressMode, ctx: BasicCPUContext, addr: u16): (s: string)
    requires ctx.Valid()
    reads ctx, ctx.ram
    ensures mode != ZeroPageIdxY ==> s == OperandText(mode, ctx, addr)
  {
    ByteModeTexts(ctx, addr);
    WordModeTexts(ctx, addr);
    match mode
    case Immediate => "#$" + Hex2(ctx.Peek(addr))
    case Implicit => ""
    case Absolute => "$" + Hex4(ctx.PeekWord(addr))
    case AbsoluteZeroPage => "$" + Hex2(ctx.Peek(addr))
    case ZeroPageIdxX => "$" + Hex2(ctx.Peek(addr)) + ", X"
    case ZeroPageIdxY => "$" + Hex2(ctx.Peek(addr)) + ", X"
    case PreIndexIndirect => "($" + Hex2(ctx.Peek(addr)) + ", X)"
    case PostIndexIndirect => "($" + Hex2(ctx.Peek(addr)) + "), Y"
    case AbsoluteIndexedX => "$" + Hex4(ctx.PeekWord(addr)) + ", X"
    case AbsoluteIndexedY => "$" + Hex4(ctx.PeekWord(addr)) + ", Y"
    case Indirect => "($" + Hex4(ctx.PeekWord(addr)) + ")"
    case Relative => Decimal(ctx.Peek(addr) as nat)
    case Invalid => "Invalid"
  }

  /** The number of operand bytes a mode prints. */
  function OperandWidth(mode: AddressMode): nat
  {
    match mode
    case Invalid | Implicit => 0
    case Absolute | AbsoluteIndexedX | AbsoluteIndexedY | Indirect => 2
    case _ => 1
  }

  /** The text each mode puts before and after its number, in the 6502's
    * assembler syntax: a mode indexed by Y names Y. */
  function Decoration(mode: AddressMode): (d: (string, string))
  {
    match mode
    case Immediate => ("#", "")
    case ZeroPageIdxX | AbsoluteIndexedX => ("", ", X")
    case ZeroPageIdxY | AbsoluteIndexedY => ("", ", Y")
    case PreIndexIndirect => ("(", ", X)")
    case PostIndexIndirect => ("(", "), Y")
    case Indirect => ("(", ")")
    case _ => ("", "")
  }

  /** The operand: the byte at `addr`, or the little-endian word there. */
  function OperandValue(mode: AddressMode, ctx: BasicCPUContext, addr: u16): int
    requires ctx.Valid()
    reads ctx, ctx.ram
  {
    if OperandWidth(mode) == 2 then ctx.PeekWord(addr) as int else ctx.Peek(addr) as int
  }

  /** The operand number: decimal for a branch offset, otherwise `$` and
    * two or four hexadecimal digits. */
  function OperandNumber(mode: AddressMode, ctx: BasicCPUContext, addr: u16): string
    requires ctx.Valid()
    reads ctx, ctx.ram
  {
    if mode == Relative then Decimal(ctx.Peek(addr) as nat)
    else if OperandWidth(mode) == 2 then "$" + Hex4(ctx.PeekWord(addr))
    else "$" + Hex2(ctx.Peek(addr))
  }

  /** The corrected operand formatter: every mode decorated as its
    * assembler syntax says (`AddressModeToStr` with `ZeroPageIdxY` naming
    * Y). */
  function OperandText(mode: AddressMode, ctx: BasicCPUContext, addr: u16): string
    requires ctx.Valid()
    reads ctx, ctx.ram
  {
    if mode == Invalid then "Invalid"
    else if mode == Implicit then ""
    else Decoration(mode).0 + OperandNumber(mode, ctx, addr) + Decoration(mode).1
  }

  /** The operand text is the mode's decoration around a number that the
    * debugger's number parser reads back as the operand byte or word. */
  lemma OperandTextReadsBack(mode: AddressMode, ctx: BasicCPUContext, addr: u16)
    requires ctx.Valid() && OperandWidth(mode) > 0
    ensures var s := OperandText(mode, ctx, addr);
            var pre, post := Decoration(mode).0, Decoration(mode).1;
            && |pre| + |post| <= |s|
            && s[..|pre|] == pre && s[|s| - |post|..] == post
            && ParseUint(s[|pre|..|s| - |post|], 8 * OperandWidth(mode))
               == Parsed(OperandValue(mode, ctx, addr), NoError)
  {
    var s := OperandText(mode, ctx, addr);
    var pre, num, post := Decoration(mode).0, OperandNumber(mode, ctx, addr), Decoration(mode).1;
    assert s == pre + num + post;
    Unwrap(pre, num, post);
    assert s[|pre|..|s| - |post|] == num;
    OperandNumberReadsBack(mode, ctx, addr);
  }

  lemma Unwrap(pre: string, num: string, post: string)
    ensures var s := pre + num + post;
            |pre| + |post| <= |s| && s[..|pre|] == pre && s[|s| - |post|..] == post &&
            s[|pre|..|s| - |post|] == num
  {
  }

  lemma OperandNumberReadsBack(mode: AddressMode, ctx: BasicCPUContext, addr: u16)
    requires ctx.Valid() && OperandWidth(mode) > 0
    ensures ParseUint(OperandNumber(mode, ctx, addr), 8 * OperandWidth(mode))
            == Parsed(OperandValue(mode, ctx, addr), NoError)
  {
    if mode == Relative {
      var b := ctx.Peek(addr);
      assert OperandNumber(mode, ctx, addr) == Decimal(b as nat) && 8 * OperandWidth(mode) == 8;
      DecimalReadsBack(b);
    } else if OperandWidth(mode) == 2 {
      var w := ctx.PeekWord(addr);
      assert OperandNumber(mode, ctx, addr) == "$" + Hex4(w) && 8 * OperandWidth(mode) == 16;
      Hex4ReadsBack(w);
    } else {
      var b := ctx.Peek(addr);
      assert OperandNumber(mode, ctx, addr) == "$" + Hex2(b) && 8 * OperandWidth(mode) == 8;
      Hex2ReadsBack(b);
    }
  }

  /** The decorated text of each one-byte mode, in assembler syntax. */
  lemma ByteModeTexts(ctx: BasicCPUContext, addr: u16)
    requires ctx.Valid()
    ensures var h := Hex2(ctx.Peek(addr));
            && OperandText(Immediate, ctx, addr) == "#$" + h
            && OperandText(AbsoluteZeroPage, ctx, addr) == "$" + h
            && OperandText(ZeroPageIdxX, ctx, addr) == "$" + h + ", X"
            && OperandText(ZeroPageIdxY, ctx, addr) == "$" + h + ", Y"
            && OperandText(PreIndexIndirect, ctx, addr) == "($" + h + ", X)"
            && OperandText(PostIndexIndirect, ctx, addr) == "($" + h + "), Y"
            && OperandText(Relative, ctx, addr) == Decimal(ctx.Peek(addr) as nat)
  {
    var h := Hex2(ctx.Peek(addr));
    assert "#$" + h == "#" + ("$" + h) + "";
    assert "$" + h == "" + ("$" + h) + "";
    assert "$" + h + ", X" == "" + ("$" + h) + ", X";
    assert "$" + h + ", Y" == "" + ("$" + h) + ", Y";
    assert "($" + h + ", X)" == "(" + ("$" + h) + ", X)";
    assert "($" + h + "), Y" == "(" + ("$" + h) + "), Y";
    var d := Decimal(ctx.Peek(addr) as nat);
    assert d == "" + d + "";
  }

  /** The decorated text of each two-byte mode, in assembler syntax. */
  lemma WordModeTexts(ctx: BasicCPUContext, addr: u16)
    requires ctx.Valid()
    ensures var hh := Hex4(ctx.PeekWord(addr));
            && OperandText(Absolute, ctx, addr) == "$" + hh
            && OperandText(AbsoluteIndexedX, ctx, addr) == "$" + hh + ", X"
            && OperandText(AbsoluteIndexedY, ctx, addr) == "$" + hh + ", Y"
            && OperandText(Indirect, ctx, addr) == "($" + hh + ")"
  {
    var hh := Hex4(ctx.PeekWord(addr));
    assert "$" + hh == "" + ("$" + hh) + "";
    assert "$" + hh + ", X" == "" + ("$" + hh) + ", X";
    assert "$" + hh + ", Y" == "" + ("$" + hh) + ", Y";
    assert "($" + hh + ")" == "(" + ("$" + hh) + ")";
  }

  /** As written, `$ff, y` is listed exactly like `$ff, x`, where the
    * decorated text names Y. */
  lemma ZeroPageIdxYListedAsX(ctx: BasicCPUContext, addr: u16)
    requires ctx.Valid()
    ensures AddressModeToStr(ZeroPageIdxY, ctx, addr) == AddressModeToStr(ZeroPageIdxX, ctx, addr)
    ensures AddressModeToStr(ZeroPageIdxY, ctx, addr) != OperandText(ZeroPageIdxY, ctx, addr)
  {
    var text := "$" + Hex2(ctx.Peek(addr));
    ListedIndexedTexts(ctx, addr);
    CorrectedIndexedYText(ctx, addr);
    assert (text + ", X")[|text| + 2] == 'X' && (text + ", Y")[|text| + 2] == 'Y';
  }

  /** The zero-page indexed texts, each spelled out. */
  lemma ListedIndexedTexts(ctx: BasicCPUContext, addr: u16)
    requires ctx.Valid()
    ensures AddressModeToStr(ZeroPageIdxY, ctx, addr) == "$" + Hex2(ctx.Peek(addr)) + ", X"
    ensures AddressModeToStr(ZeroPageIdxX, ctx, addr) == "$" + Hex2(ctx.Peek(addr)) + ", X"
  {
  }

  lemma CorrectedIndexedYText(ctx: BasicCPUContext, addr: u16)
    requires ctx.Valid()
    ensures OperandText(ZeroPageIdxY, ctx, addr) == "$" + Hex2(ctx.Peek(addr)) + ", Y"
  {
    assert OperandText(ZeroPageIdxY, ctx, addr) == "" + ("$" + Hex2(ctx.Peek(addr))) + ", Y";
  }

  /** With the decoration, no two hexadecimal modes of the same width look
    * alike, so the listing shows which mode an instruction uses. */
  lemma DecorationsDistinguishModes(m1: AddressMode, m2: AddressMode)
    requires m1 != m2 && m1 != Relative && m2 != Relative
    requires OperandWidth(m1) == OperandWidth(m2) > 0
    ensures Decoration(m1) != Decoration(m2)
  {
  }

  // ------------------------------------------------------------ Disassemble

  /** The text and length of the instruction at `addr`: an opcode whose
    * entry is invalid is shown as a one-byte data directive; otherwise the
    * mnemonic, a space and the operand text read from `addr + 1`. */
  function Disassemble(ctx: BasicCPUContext, table: seq<DisasmInfo>, addr: u16): (r: (string, u16))
    requires ctx.Valid() && |table| == 256
    reads ctx, ctx.ram
    ensures var op := ctx.ram[addr];
            table[op].mode == Invalid ==>
              && r.1 == 1 && |r.0| == 7 && r.0[..4] == "db  "
              && ParseUint(r.0[4..], 8) == Parsed(op as int, NoError)
    ensures table[ctx.ram[addr]].mode == Invalid ==> r == ("db  $" + Hex2(ctx.ram[addr]), 1)
    ensures var info := table[ctx.ram[addr]];
            info.mode != Invalid ==>
              && r.1 == info.length
              && |info.name| < |r.0| && r.0[..|info.name|] == info.name && r.0[|info.name|] == ' '
    ensures var info := table[ctx.ram[addr]];
            info.mode != Invalid && info.mode != ZeroPageIdxY ==>
              r.0 == info.name + " " + OperandText(info.mode, ctx, Wrap16(addr as int + 1))
  {
    var op := ctx.Peek(addr);
    var info := table[op];
    if info.mode == Invalid then
      DataDirectiveReadsBack(op);
      ("db  $" + Hex2(op), 1)
    else
      (info.name + " " + AddressModeToStr(info.mode, ctx, Wrap16(addr as int + 1)), info.length)
  }

  /** An opcode that no row of the instruction list gives a valid mode is
    * shown as a one-byte data directive holding the opcode. */
  lemma DisassembleUnlisted(ctx: BasicCPUContext, data: seq<InstructionInfo>, addr: u16)
    requires ctx.Valid()
    requires TableEntry(data, ctx.Peek(addr)).mode == Invalid
    ensures Disassemble(ctx, DisasmTable(data), addr) == ("db  $" + Hex2(ctx.Peek(addr)), 1)
  {
    assert DisasmTable(data)[ctx.Peek(addr)].mode == Invalid;
  }

  /** The directive's hex text reads back as the opcode. */
  lemma DataDirectiveReadsBack(op: u8)
    ensures var text := "db  $" + Hex2(op);
            |text| == 7 && text[..4] == "db  " && ParseUint(text[4..], 8) == Parsed(op as int, NoError)
  {
    var h := "$" + Hex2(op);
    assert "db  $" + Hex2(op) == "db  " + h;
    Unwrap("db  ", h, "");
    assert ("db  " + h + "")[4..] == h;
    Hex2ReadsBack(op);
  }

  /** An opcode with a valid entry takes its mnemonic and length from the
    * last row that lists it, and its operand from the bytes after it. */
  lemma DisassembleListed(ctx: BasicCPUContext, data: seq<InstructionInfo>, addr: u16, i: nat)
    requires ctx.Valid()
    requires i < |data| && data[i].opcode == ctx.Peek(addr) && data[i].mode != Invalid
    requires forall j :: i < j < |data| ==> data[j].opcode != data[i].opcode
    ensures var r := Disassemble(ctx, DisasmTable(data), addr);
            && r.1 == data[i].length
            && r.0 == data[i].name + " " + AddressModeToStr(data[i].mode, ctx, Wrap16(addr as int + 1))
  {
    TableEntryLastWins(data, data[i].opcode, i);
  }
}

=== FILE: instructionexec.dfy ===
/**
 * Instruction executors: the two LDA variants. An executor receives the
 * context, the opcode (unused) and the address of the instruction, loads
 * A, recomputes the Z and N flags from the loaded byte, and moves PC past
 * the two-byte instruction.
 */
module InstructionExec {
  import opened Context

  /** The flags byte after `setFlagsFromValue(val)`: Z set exactly when the
    * value is zero, N set exactly when its bit 7 is set (`val & 0x80 == 0x80`,
    * which for a byte is `val >= 0x80`), every other bit kept. */
  function FlagsFromValue(flags: bv8, val: u8): (r: bv8)
    ensures (r & FlagZ != 0) == (val == 0)
    ensures (r & FlagN != 0) == (val >= 0x80)
    ensures r & !(FlagZ | FlagN) == flags & !(FlagZ | FlagN)
  {
    WithFlag(WithFlag(flags, FlagZ, val == 0), FlagN, val >= 0x80)
  }

  method SetFlagsFromValue(ctx: BasicCPUContext, val: u8) returns (r: u8)
    modifies ctx
    ensures r == val
    ensures ctx.Regs() == old(ctx.Regs()).(flags := FlagsFromValue(old(ctx.flags), val))
    ensures ctx.Flag(FlagZ) == (val == 0) && ctx.Flag(FlagN) == (val >= 0x80)
    ensures unchanged(ctx.ram)
  {
    ctx.SetFlag(FlagZ, val == 0);
    ctx.SetFlag(FlagN, val >= 0x80);
    return val;
  }

  /** LDA #$ff: A := the byte at addr + 1, PC := addr + 2. */
  method ExecLdaImmediate(ctx: BasicCPUContext, opcode: u8, addr: u16)
    requires ctx.Valid()
    modifies ctx
    ensures ctx.a == ctx.ram[Wrap16(addr as int + 1)]
    ensures ctx.Regs() == old(ctx.Regs()).(a := ctx.a, flags := FlagsFromValue(old(ctx.flags), ctx.a),
                                           pc := Wrap16(addr as int + 2))
    ensures ctx.Flag(FlagZ) == (ctx.a == 0) && ctx.Flag(FlagN) == (ctx.a >= 0x80)
    ensures unchanged(ctx.ram)
  {
    var v := SetFlagsFromValue(ctx, ctx.Peek(Wrap16(addr as int + 1)));
    ctx.SetRegA(v);
    ctx.SetRegPC(Wrap16(addr as int + 2));
  }

  /** LDA $ff: A := the byte at the zero-page address held at addr + 1,
    * PC := addr + 2. */
  method ExecLdaZeroPage(ctx: BasicCPUContext, opcode: u8, addr: u16)
    requires ctx.Valid()
    modifies ctx
    ensures ctx.a == ctx.ram[ctx.ram[Wrap16(addr as int + 1)] as u16]
    ensures ctx.Regs() == old(ctx.Regs()).(a := ctx.a, flags := FlagsFromValue(old(ctx.flags), ctx.a),
                                           pc := Wrap16(addr as int + 2))
    ensures ctx.Flag(FlagZ) == (ctx.a == 0) && ctx.Flag(FlagN) == (ctx.a >= 0x80)
    ensures unchanged(ctx.ram)
  {
    var v := SetFlagsFromValue(ctx, ctx.Peek(ctx.Peek(Wrap16(addr as int + 1)) as u16));
    ctx.SetRegA(v);
    ctx.SetRegPC(Wrap16(addr as int + 2));
  }

  /** The entries of the `executors` table. */
  datatype Executor = LdaImmediate | LdaZeroPage

  const Executors: seq<Executor> := [LdaImmediate, LdaZeroPage]

  /** The table holds LDA immediate at index 0 and LDA zero page at index 1. */
  lemma ExecutorsTable()
    ensures |Executors| == 2
    ensures Executors[0] == LdaImmediate && Executors[1] == LdaZeroPage
  {
  }

  /** Calling an entry of the table runs the executor it names. */
  method Execute(e: Executor, ctx: BasicCPUContext, opcode: u8, addr: u16)
    requires ctx.Valid()
    modifies ctx
    ensures ctx.a == (match e
                      case LdaImmediate => ctx.ram[Wrap16(addr as int + 1)]
                      case LdaZeroPage => ctx.ram[ctx.ram[Wrap16(addr as int + 1)] as u16])
    ensures ctx.Regs() == old(ctx.Regs()).(a := ctx.a, flags := FlagsFromValue(old(ctx.flags), ctx.a),
                                           pc := Wrap16(addr as int + 2))
    ensures unchanged(ctx.ram)
  {
    match e {
      case LdaImmediate => ExecLdaImmediate(ctx, opcode, addr);
      case LdaZeroPage => ExecLdaZeroPage(ctx, opcode, addr);
    }
  }
}

=== FILE: parseutils.dfy ===
/**
 * Numeric literals typed at the debugger: blanks around the text are
 * trimmed, a leading `$` selects hexadecimal for the rest, anything else is
 * decimal, and the value must fit in `bitSize` bits.
 *
 * The digit parse itself is Go's strconv.ParseUint / strconv.ParseInt, which
 * this module states as that library defines it: digits are read left to
 * right; a character that is not a digit of the base stops the scan with a
 * syntax error and value 0; the first digit that takes the value past the
 * largest `bitSize`-bit number stops it with a range error and that largest
 * value. Bit size 0 means 64 (the int size of a 64-bit platform).
 */
module ParseUtils {

  /** The errors the two parsers can report. */
  datatype NumError = NoError | EmptyInput | ErrSyntax | ErrRange | ErrBitSize

  /** Go's (value, error) pair. */
  datatype Parsed = Parsed(value: int, err: NumError)

  function Pow(base: nat, n: nat): (p: nat)
    ensures base >= 1 ==> p >= 1
  {
    if n == 0 then 1 else base * Pow(base, n - 1)
  }

  // ---------------------------------------------------------------- trimming

  /** The cut set " \t" of strings.Trim. */
  predicate IsBlank(c: char) { c == ' ' || c == '\t' }

  function TrimLeft(s: string): (r: string)
    ensures |r| <= |s| && r == s[|s| - |r|..]
    ensures r == [] || !IsBlank(r[0])
    ensures forall i :: 0 <= i < |s| - |r| ==> IsBlank(s[i])
  {
    if s != [] && IsBlank(s[0]) then TrimLeft(s[1..]) else s
  }

  function TrimRight(s: string): (r: string)
    ensures |r| <= |s| && r == s[..|r|]
    ensures r == [] || !IsBlank(r[|r| - 1])
    ensures forall i :: |r| <= i < |s| ==> IsBlank(s[i])
  {
    if s != [] && IsBlank(s[|s| - 1]) then TrimRight(s[..|s| - 1]) else s
  }

  /** strings.Trim(s, " \t"): `s` without its leading and trailing blanks. */
  function Trim(s: string): (r: string)
    ensures r == [] || (!IsBlank(r[0]) && !IsBlank(r[|r| - 1]))
    ensures var lead := |s| - |TrimLeft(s)|;
            lead + |r| <= |s| && r == s[lead..lead + |r|] &&
            (forall i :: 0 <= i < lead ==> IsBlank(s[i])) &&
            (forall i :: lead + |r| <= i < |s| ==> IsBlank(s[i]))
  {
    var left := TrimLeft(s);
    var r := TrimRight(left);
    TrimSlices(s, left, r);
    r
  }

  lemma TrimSlices(s: string, left: string, r: string)
    requires |left| <= |s| && left == s[|s| - |left|..]
    requires |r| <= |left| && r == left[..|r|]
    requires forall i :: |r| <= i < |left| ==> IsBlank(left[i])
    ensures var lead := |s| - |left|;
            r == s[lead..lead + |r|] && forall i :: lead + |r| <= i < |s| ==> IsBlank(s[i])
  {
    var lead := |s| - |left|;
    forall i | lead + |r| <= i < |s|
      ensures IsBlank(s[i])
    {
      assert s[i] == left[i - lead];
    }
  }

  /** Text that starts and ends with a non-blank is left as it is. */
  lemma TrimKeepsUnpadded(s: string)
    requires s != [] && !IsBlank(s[0]) && !IsBlank(s[|s| - 1])
    ensures Trim(s) == s
  {
  }

  // ------------------------------------------------- strconv digit scanning

  /** The digit value strconv gives a character: 0-9, then letters of either
    * case from 10; 36 (no digit in any base) for everything else. */
  function DigitValue(c: char): (d: nat)
    ensures d <= 36
  {
    if '0' <= c <= '9' then c as int - '0' as int
    else if 'a' <= c <= 'z' then c as int - 'a' as int + 10
    else if 'A' <= c <= 'Z' then c as int - 'A' as int + 10
    else 36
  }

  /** The largest number of `bits` bits. */
  function MaxUint(bits: nat): (m: nat)
    ensures m + 1 == Pow(2, bits)
  {
    Pow(2, bits) - 1
  }

  /** The bit size strconv uses: 0 stands for 64. */
  function BitCount(bitSize: int): int
  {
    if bitSize == 0 then 64 else bitSize
  }

  /** strconv's digit loop, with `n` the value of the digits read so far. */
  function Scan(s: string, base: nat, maxVal: nat, n: nat): (r: Parsed)
    decreases |s|
  {
    if s == [] then Parsed(n, NoError)
    else
      var d := DigitValue(s[0]);
      if d >= base then Parsed(0, ErrSyntax)
      else if n * base + d > maxVal then Parsed(maxVal, ErrRange)
      else Scan(s[1..], base, maxVal, n * base + d)
  }

  /** strconv.ParseUint(s, base, bitSize) for the bases this package uses. */
  function StrconvParseUint(s: string, base: nat, bitSize: int): (r: Parsed)
    requires base == 10 || base == 16
    ensures r.err != EmptyInput
    ensures r.err == ErrBitSize <==> s != [] && (bitSize < 0 || bitSize > 64)
    ensures r.err == NoError || r.err == ErrRange ==> 0 <= bitSize <= 64
    ensures r.err == NoError ==> 0 <= r.value <= MaxUint(BitCount(bitSize))
    ensures r.err == ErrRange ==> r.value == MaxUint(BitCount(bitSize))
  {
    if s == [] then Parsed(0, ErrSyntax)
    else if bitSize < 0 || bitSize > 64 then Parsed(0, ErrBitSize)
    else
      ScanOutcomes(s, base, MaxUint(BitCount(bitSize)), 0);
      Scan(s, base, MaxUint(BitCount(bitSize)), 0)
  }

  /** strconv.ParseInt(s, base, bitSize): an optional sign, then the unsigned
    * parse, then the signed range check. */
  function StrconvParseInt(s: string, base: nat, bitSize: int): (r: Parsed)
    requires base == 10 || base == 16
    ensures r.err != EmptyInput
  {
    if s == [] then Parsed(0, ErrSyntax)
    else
      var neg := s[0] == '-';
      var rest := if s[0] == '+' || s[0] == '-' then s[1..] else s;
      var un := StrconvParseUint(rest, base, bitSize);
      if un.err != NoError && un.err != ErrRange then Parsed(0, un.err)
      else SignedRangeCheck(neg, un.value, Pow(2, BitCount(bitSize) - 1))
  }

  /** ParseInt's range check of the unsigned magnitude `un` against the
    * signed bound `cutoff`; a range error of the unsigned parse that passes
    * this check is forgotten, as in strconv. */
  function SignedRangeCheck(neg: bool, un: int, cutoff: int): (r: Parsed)
    ensures r.err == NoError || r.err == ErrRange
  {
    if !neg && un >= cutoff then Parsed(cutoff - 1, ErrRange)
    else if neg && un > cutoff then Parsed(-cutoff, ErrRange)
    else Parsed(if neg then -un else un, NoError)
  }

  // ---------------------------------------------------- the package's parsers

  /** The base a trimmed literal selects, and the digits it hands to strconv. */
  function Base(t: string): nat
    requires t != []
  {
    if t[0] == '$' then 16 else 10
  }

  function Digits(t: string): string
    requires t != []
  {
    if t[0] == '$' then t[1..] else t
  }

  function ParseInt(s: string, bitSize: int): (r: Parsed)
    ensures Trim(s) == [] <==> r == Parsed(0, EmptyInput)
  {
    var t := Trim(s);
    if |t| == 0 then Parsed(0, EmptyInput)
    else if t[0] == '$' then StrconvParseInt(t[1..], 16, bitSize)
    else StrconvParseInt(t, 10, bitSize)
  }

  function ParseUint(s: string, bitSize: int): (r: Parsed)
    ensures Trim(s) == [] <==> r == Parsed(0, EmptyInput)
    ensures r.err == NoError ==> 0 <= bitSize <= 64 && 0 <= r.value <= MaxUint(BitCount(bitSize))
  {
    var t := Trim(s);
    if |t| == 0 then Parsed(0, EmptyInput)
    else if t[0] == '$' then StrconvParseUint(t[1..], 16, bitSize)
    else StrconvParseUint(t, 10, bitSize)
  }

  // ------------------------------------------------------ reference meaning

  /** Every character is a digit of `base`. */
  ghost predicate AllDigits(s: string, base: nat)
  {
    forall i :: 0 <= i < |s| ==> DigitValue(s[i]) < base
  }

  /** Positional value: the digit at index i weighs base^(|s| - 1 - i). */
  ghost function DigitsValue(s: string, base: nat): nat
  {
    if s == [] then 0 else DigitValue(s[0]) * Pow(base, |s| - 1) + DigitsValue(s[1..], base)
  }

  /** Appending a digit multiplies the value by the base and adds the digit. */
  lemma {:induction false} DigitsValueAppend(s: string, c: char, base: nat)
    ensures DigitsValue(s + [c], base) == DigitsValue(s, base) * base + DigitValue(c)
    decreases |s|
  {
    if s == [] {
      assert [c][1..] == [];
    } else {
      assert (s + [c])[1..] == s[1..] + [c];
      DigitsValueAppend(s[1..], c, base);
      var x, p, v := DigitValue(s[0]), Pow(base, |s| - 1), DigitsValue(s[1..], base);
      assert Pow(base, |s|) == base * p;
      assert DigitsValue(s + [c], base) == x * (base * p) + v * base + DigitValue(c);
      assert DigitsValue(s, base) == x * p + v;
      Ring(x, p, v, base);
    }
  }

  lemma Associate(x: int, y: int, z: int)
    ensures x * (y * z) == (x * y) * z
  {
  }

  /** The ring identity the positional proofs need. */
  lemma Ring(x: int, p: int, v: int, b: int)
    ensures x * (b * p) + v * b == (x * p + v) * b
  {
    calc {
      (x * p + v) * b;
      (x * p) * b + v * b;
      { assert (x * p) * b == x * (p * b) == x * (b * p); }
      x * (b * p) + v * b;
    }
  }

  /** The only three outcomes of the scan. */
  lemma {:induction false} ScanOutcomes(s: string, base: nat, maxVal: nat, n: nat)
    requires n <= maxVal
    ensures var r := Scan(s, base, maxVal, n);
            (r.err == NoError && 0 <= r.value <= maxVal) || r == Parsed(0, ErrSyntax) || r == Parsed(maxVal, ErrRange)
    decreases |s|
  {
    if s != [] {
      var d := DigitValue(s[0]);
      if d < base && n * base + d <= maxVal {
        ScanOutcomes(s[1..], base, maxVal, n * base + d);
      }
    }
  }

  /** The number spelled by the digits of `s` read after the number `n`,
    * by Horner's rule. */
  ghost function Total(s: string, base: nat, n: nat): nat
    decreases |s|
  {
    if s == [] then n else Total(s[1..], base, n * base + DigitValue(s[0]))
  }

  /** Horner's rule agrees with the positional value. */
  lemma {:induction false} TotalIsPositional(s: string, base: nat, n: nat)
    ensures Total(s, base, n) == n * Pow(base, |s|) + DigitsValue(s, base)
    decreases |s|
  {
    if s != [] {
      var p := Pow(base, |s| - 1);
      TotalIsPositional(s[1..], base, n * base + DigitValue(s[0]));
      assert Pow(base, |s|) == base * p;
      Shift(n, base, DigitValue(s[0]), p, DigitsValue(s[1..], base));
    }
  }

  /** Further digits never make the number smaller. */
  lemma {:induction false} TotalAtLeast(s: string, base: nat, n: nat)
    requires base >= 1
    ensures Total(s, base, n) >= n
    decreases |s|
  {
    if s != [] {
      TotalAtLeast(s[1..], base, n * base + DigitValue(s[0]));
      MulAtLeast(n, base);
    }
  }

  /** The scan succeeds exactly when every character is a digit and the
    * number they spell, after the `n` already read, fits under `maxVal`;
    * it then returns that number. */
  lemma {:induction false} ScanCorrect(s: string, base: nat, maxVal: nat, n: nat)
    requires n <= maxVal
    ensures var r := Scan(s, base, maxVal, n);
            (r.err == NoError <==> AllDigits(s, base) && Total(s, base, n) <= maxVal) &&
            (r.err == NoError ==> r.value == Total(s, base, n))
    decreases |s|
  {
    if s == [] {
      return;
    }
    var d := DigitValue(s[0]);
    if d >= base {
      assert !AllDigits(s, base) by { assert DigitValue(s[0]) >= base; }
    } else {
      if n * base + d > maxVal {
        TotalAtLeast(s[1..], base, n * base + d);
      } else {
        ScanCorrect(s[1..], base, maxVal, n * base + d);
        assert AllDigits(s, base) <==> AllDigits(s[1..], base) by {
          if AllDigits(s[1..], base) {
            forall i | 0 <= i < |s| ensures DigitValue(s[i]) < base {
              if i > 0 { assert s[i] == s[1..][i - 1]; }
            }
          }
        }
      }
    }
  }

  /** One digit moved from the string into the number read so far. */
  lemma Shift(n: int, b: int, d: int, p: int, v: int)
    ensures n * (b * p) + (d * p + v) == (n * b + d) * p + v
  {
    assert (n * b + d) * p == (n * b) * p + d * p;
    Associate(n, b, p);
  }

  lemma MulAtLeast(x: nat, p: nat)
    requires p >= 1
    ensures x * p >= x
  {
  }

  /** What ParseUint accepts and returns: after trimming, a non-empty
    * string of decimal digits, or `$` and a non-empty string of hex digits,
    * whose value fits in the bit size; the result is that value. Everything
    * else is an error. */
  lemma ParseUintCorrect(s: string, bitSize: int)
    ensures var r := ParseUint(s, bitSize); var t := Trim(s);
            (r.err == NoError <==>
               t != [] && Digits(t) != [] && 0 <= bitSize <= 64 &&
               AllDigits(Digits(t), Base(t)) &&
               DigitsValue(Digits(t), Base(t)) < Pow(2, BitCount(bitSize))) &&
            (r.err == NoError ==> r.value == DigitsValue(Digits(t), Base(t)))
  {
    var t := Trim(s);
    if t != [] && Digits(t) != [] && 0 <= bitSize <= 64 {
      ScanCorrect(Digits(t), Base(t), MaxUint(BitCount(bitSize)), 0);
      TotalIsPositional(Digits(t), Base(t), 0);
    }
  }

  /** A lone `$` has no digits: an error. */
  lemma LoneDollarIsError(bitSize: int)
    ensures ParseUint("$", bitSize).err != NoError
    ensures ParseInt("$", bitSize).err != NoError
  {
    TrimKeepsUnpadded("$");
  }

  /** strconv.ParseInt succeeds exactly on an optional sign and a non-empty
    * digit string whose signed value is in the two's-complement range of
    * the bit size (any valid bit size except 1), and returns that value. */
  lemma StrconvParseIntCorrect(d: string, base: nat, bitSize: int)
    requires base == 10 || base == 16
    requires 0 <= bitSize <= 64 && bitSize != 1
    requires d != []
    ensures var r := StrconvParseInt(d, base, bitSize);
            var mag := if d[0] == '+' || d[0] == '-' then d[1..] else d;
            var bound: int := Pow(2, BitCount(bitSize) - 1);
            var v: int := if d[0] == '-' then 0 - DigitsValue(mag, base) else DigitsValue(mag, base);
            (r.err == NoError <==> mag != [] && AllDigits(mag, base) && -bound <= v < bound) &&
            (r.err == NoError ==> r.value == v)
  {
    var mag := if d[0] == '+' || d[0] == '-' then d[1..] else d;
    if mag != [] {
      var un := StrconvParseUint(mag, base, bitSize);
      UnsignedMagnitude(mag, base, bitSize);
      CutoffFacts(BitCount(bitSize));
      SignedCheckCorrect(d[0] == '-', un, DigitsValue(mag, base), AllDigits(mag, base), Pow(2, BitCount(bitSize) - 1));
    }
  }

  /** The unsigned parse of the magnitude: it succeeds exactly on digit
    * strings whose positional value fits, and then yields that value. */
  lemma UnsignedMagnitude(mag: string, base: nat, bitSize: int)
    requires base == 10 || base == 16
    requires 0 <= bitSize <= 64
    requires mag != []
    ensures var un := StrconvParseUint(mag, base, bitSize);
            var dv := DigitsValue(mag, base);
            && (un.err == NoError <==> AllDigits(mag, base) && dv <= MaxUint(BitCount(bitSize)))
            && (un.err == NoError ==> un.value == dv)
  {
    ScanCorrect(mag, base, MaxUint(BitCount(bitSize)), 0);
    TotalIsPositional(mag, base, 0);
  }

  /** The signed range check on an unsigned parse: the result is in range
    * exactly when the signed value of the digits is. */
  lemma SignedCheckCorrect(neg: bool, un: Parsed, dv: int, digits: bool, cutoff: int)
    requires cutoff >= 2 && dv >= 0
    requires un.err == NoError <==> digits && dv <= 2 * cutoff - 1
    requires un.err == NoError ==> un.value == dv
    requires un.err == ErrRange ==> un.value == 2 * cutoff - 1
    ensures var r := if un.err != NoError && un.err != ErrRange then Parsed(0, un.err) else SignedRangeCheck(neg, un.value, cutoff);
            var v := if neg then -dv else dv;
            (r.err == NoError <==> digits && -cutoff <= v < cutoff) && (r.err == NoError ==> r.value == v)
  {
  }

  /** What ParseInt accepts and returns (for every valid bit size except
    * 1): after trimming and an optional `$`, an optional sign and a
    * non-empty string of digits whose signed value lies in the
    * two's-complement range of the bit size; the result is that signed
    * value. */
  lemma ParseIntCorrect(s: string, bitSize: int)
    requires 0 <= bitSize <= 64 && bitSize != 1
    ensures var r := ParseInt(s, bitSize); var t := Trim(s);
            t != [] && Digits(t) != [] ==>
            var d := Digits(t);
            var mag := if d[0] == '+' || d[0] == '-' then d[1..] else d;
            var bound: int := Pow(2, BitCount(bitSize) - 1);
            var v: int := if d[0] == '-' then 0 - DigitsValue(mag, Base(t)) else DigitsValue(mag, Base(t));
            (r.err == NoError <==> mag != [] && AllDigits(mag, Base(t)) && -bound <= v < bound) &&
            (r.err == NoError ==> r.value == v)
  {
    var t := Trim(s);
    if t != [] && Digits(t) != [] {
      StrconvParseIntCorrect(Digits(t), Base(t), bitSize);
    }
  }

  lemma CutoffFacts(bits: int)
    requires 2 <= bits
    ensures MaxUint(bits) == 2 * Pow(2, bits - 1) - 1 && Pow(2, bits - 1) >= 2
  {
    assert Pow(2, bits) == 2 * Pow(2, bits - 1);
    assert Pow(2, bits - 1) == 2 * Pow(2, bits - 2);
  }

  /** A bit size outside 0..64 is refused, whatever the text. */
  lemma BadBitSizeIsError(s: string, bitSize: int)
    requires bitSize < 0 || bitSize > 64
    ensures ParseUint(s, bitSize).err != NoError
    ensures ParseInt(s, bitSize).err != NoError
  {
  }

  lemma PowersOfTwo()
    ensures Pow(2, 8) == 0x100 && Pow(2, 16) == 0x10000
  {
    assert Pow(2, 4) == 16 by {
      assert Pow(2, 1) == 2;
      assert Pow(2, 2) == 4;
      assert Pow(2, 3) == 8;
    }
    assert Pow(2, 8) == 0x100 by {
      assert Pow(2, 5) == 32;
      assert Pow(2, 6) == 64;
      assert Pow(2, 7) == 128;
    }
    assert Pow(2, 12) == 0x1000 by {
      assert Pow(2, 9) == 0x200;
      assert Pow(2, 10) == 0x400;
      assert Pow(2, 11) == 0x800;
    }
    assert Pow(2, 13) == 0x2000;
    assert Pow(2, 14) == 0x4000;
    assert Pow(2, 15) == 0x8000;
  }

  /** The package's own test: "1234" fits in 16 bits but not in 8. */
  lemma ParseUintTestVectors()
    ensures ParseUint("1234", 16) == Parsed(1234, NoError)
    ensures ParseUint("1234", 8) == Parsed(0xFF, ErrRange)
  {
    TrimKeepsUnpadded("1234");
    PowersOfTwo();
    var s := "1234";
    assert s[1..] == "234" && s[1..][1..] == "34" && s[1..][1..][1..] == "4";
    assert Scan(s, 10, MaxUint(16), 0) == Parsed(1234, NoError);
    assert Scan(s[1..][1..], 10, MaxUint(8), 12) == Parsed(0xFF, ErrRange);
  }
}

=== FILE: primatives.dfy ===
/**
 * 8-bit arithmetic primitives: add and subtract with carry, shifts and sign
 * extension, each returning a result byte and a carry. They are written as
 * the Go code computes them, on uint16 (or int8) intermediates that are
 * truncated back to a byte.
 */
module Primitives {
  import opened Context

  /** 1 for a set carry, 0 otherwise. */
  function Bit(b: bool): int { if b then 1 else 0 }

  /** `int8(v)`: the two's-complement reading of a byte. */
  function ToInt8(v: u8): (r: int)
    ensures -0x80 <= r < 0x80
    ensures r % 0x100 == v as int
  {
    if v < 0x80 then v as int else v as int - 0x100
  }

  /** `uint16(int16(int8(v)))`: bytes 0x80..0xFF gain a high byte of 0xFF. */
  function SignExtend8To16(v: u8): (r: u16)
    ensures r == if v < 0x80 then v as u16 else v as u16 + 0xFF00
  {
    Wrap16(ToInt8(v))
  }

  /** Wrapping a value that is at most one width out of range. */
  lemma Wrap16Near(v: int)
    requires -0x10000 <= v < 0x20000
    ensures Wrap16(v) as int == if v < 0 then v + 0x10000 else if v >= 0x10000 then v - 0x10000 else v
  {
  }

  /** As written: the operands are sign-extended to 16 bits before the
    * addition, and a carry passed in is never cleared. */
  function AddWithCarry8(a: u8, b: u8, carry: bool): (r: (u8, bool))
    ensures carry ==> r.1
  {
    var sum := Wrap16(SignExtend8To16(a) as int + SignExtend8To16(b) as int);
    var res := if carry then Wrap16(sum as int + 1) else sum;
    (Lo(res), carry || res > 0xFF)
  }

  /** The 16-bit intermediate of AddWithCarry8 is the signed sum, wrapped. */
  lemma AddWithCarry8Intermediate(a: u8, b: u8, carry: bool) returns (res: u16)
    ensures AddWithCarry8(a, b, carry) == (Lo(res), carry || res > 0xFF)
    ensures var s := ToInt8(a) + ToInt8(b) + Bit(carry);
            res as int == if s < 0 then s + 0x10000 else s
  {
    var sum := Wrap16(SignExtend8To16(a) as int + SignExtend8To16(b) as int);
    res := if carry then Wrap16(sum as int + 1) else sum;
    Wrap16Near(SignExtend8To16(a) as int + SignExtend8To16(b) as int);
    Wrap16Near(sum as int + 1);
  }

  /** The result byte of AddWithCarry8 is the byte sum of a, b and the carry. */
  lemma AddWithCarry8ResultByte(a: u8, b: u8, carry: bool)
    ensures AddWithCarry8(a, b, carry).0 as int == (a as int + b as int + Bit(carry)) % 0x100
  {
    var res := AddWithCarry8Intermediate(a, b, carry);
    var t := a as int + b as int + Bit(carry);
    var ja, jb := if a < 0x80 then 0 else 1, if b < 0x80 then 0 else 1;
    var s := t - (ja + jb) * 0x100;
    assert s == ToInt8(a) + ToInt8(b) + Bit(carry);
    var j := (if s < 0 then 0x100 else 0) - ja - jb;
    assert res as int == t + j * 0x100;
    ModShift(t, j);
  }

  /** The carry out of AddWithCarry8 is the carry in, or a negative signed
    * sum: not the unsigned overflow of the byte addition. */
  lemma AddWithCarry8CarryOut(a: u8, b: u8, carry: bool)
    ensures AddWithCarry8(a, b, carry).1 == (carry || ToInt8(a) + ToInt8(b) + Bit(carry) < 0)
  {
    var res := AddWithCarry8Intermediate(a, b, carry);
  }

  /** Rows of the AddWithCarry8 test table that the code meets. */
  lemma AddWithCarry8MeetsTestRows()
    ensures AddWithCarry8(0x10, 0x10, false) == (0x20, false)
    ensures AddWithCarry8(0xff, 0x00, true) == (0x00, true)
    ensures AddWithCarry8(0xfe, 0x01, true) == (0x00, true)
    ensures AddWithCarry8(0xff, 0x01, true) == (0x01, true)
  {
  }

  /** Rows of the AddWithCarry8 test table whose expected carry the code
    * does not produce; the result bytes still agree. */
  lemma AddWithCarry8MissesTestCarries()
    ensures AddWithCarry8(0xff, 0x00, false) == (0xff, true)   // table expects carry false
    ensures AddWithCarry8(0xfe, 0x00, true) == (0xff, true)    // table expects carry false
    ensures AddWithCarry8(0xff, 0x01, false) == (0x00, false)  // table expects carry true
    ensures AddWithCarry8(0xfd, 0x01, true) == (0xff, true)    // table expects carry false
  {
  }

  /** The evidently intended addition: the carry out is the ninth bit of the
    * unsigned sum, so result and carry together encode the whole sum. */
  function AddWithCarry8Unsigned(a: u8, b: u8, carry: bool): (r: (u8, bool))
    ensures r.0 as int + 0x100 * Bit(r.1) == a as int + b as int + Bit(carry)
  {
    var sum := a as int + b as int + Bit(carry);
    if sum > 0xFF then ((sum - 0x100) as u8, true) else (sum as u8, false)
  }

  /** The two additions agree on the result byte and differ only in the
    * carry. */
  lemma AddWithCarry8SameResultByte(a: u8, b: u8, carry: bool)
    ensures AddWithCarry8Unsigned(a, b, carry).0 == AddWithCarry8(a, b, carry).0
  {
    AddWithCarry8ResultByte(a, b, carry);
  }

  /** The corrected addition meets every row of the test table. */
  lemma AddWithCarry8UnsignedMeetsTestTable()
    ensures AddWithCarry8Unsigned(0x10, 0x10, false) == (0x20, false)
    ensures AddWithCarry8Unsigned(0xff, 0x00, false) == (0xff, false)
    ensures AddWithCarry8Unsigned(0xfe, 0x00, true) == (0xff, false)
    ensures AddWithCarry8Unsigned(0xff, 0x00, true) == (0x00, true)
    ensures AddWithCarry8Unsigned(0xff, 0x01, false) == (0x00, true)
    ensures AddWithCarry8Unsigned(0xfd, 0x01, true) == (0xff, false)
    ensures AddWithCarry8Unsigned(0xfe, 0x01, true) == (0x00, true)
    ensures AddWithCarry8Unsigned(0xff, 0x01, true) == (0x01, true)
  {
  }

  /** As written: sign-extended subtraction, one more taken off for a set
    * carry, and a carry passed in is never cleared. */
  function SubWithCarry8(a: u8, b: u8, carry: bool): (r: (u8, bool))
    ensures carry ==> r.1
  {
    var diff := Wrap16(SignExtend8To16(a) as int - SignExtend8To16(b) as int);
    var res := if carry then Wrap16(diff as int - 1) else diff;
    (Lo(res), carry || res > 0xFF)
  }

  /** The 16-bit intermediate of SubWithCarry8 is the signed difference, wrapped. */
  lemma SubWithCarry8Intermediate(a: u8, b: u8, carry: bool) returns (res: u16)
    ensures SubWithCarry8(a, b, carry) == (Lo(res), carry || res > 0xFF)
    ensures var s := ToInt8(a) - ToInt8(b) - Bit(carry);
            res as int == if s < 0 then s + 0x10000 else s
  {
    var diff := Wrap16(SignExtend8To16(a) as int - SignExtend8To16(b) as int);
    res := if carry then Wrap16(diff as int - 1) else diff;
    Wrap16Near(SignExtend8To16(a) as int - SignExtend8To16(b) as int);
    Wrap16Near(diff as int - 1);
  }

  /** The result byte of SubWithCarry8 is a - b - carry as a byte. */
  lemma SubWithCarry8ResultByte(a: u8, b: u8, carry: bool)
    ensures SubWithCarry8(a, b, carry).0 as int == (a as int - b as int - Bit(carry)) % 0x100
  {
    var res := SubWithCarry8Intermediate(a, b, carry);
    var t := a as int - b as int - Bit(carry);
    var ja, jb := if a < 0x80 then 0 else 1, if b < 0x80 then 0 else 1;
    var s := t - (ja - jb) * 0x100;
    assert s == ToInt8(a) - ToInt8(b) - Bit(carry);
    var j := (if s < 0 then 0x100 else 0) - ja + jb;
    assert res as int == t + j * 0x100;
    ModShift(t, j);
  }

  /** The carry out of SubWithCarry8 is the carry in, or a negative signed
    * difference. */
  lemma SubWithCarry8CarryOut(a: u8, b: u8, carry: bool)
    ensures SubWithCarry8(a, b, carry).1 == (carry || ToInt8(a) - ToInt8(b) - Bit(carry) < 0)
  {
    var res := SubWithCarry8Intermediate(a, b, carry);
  }

  lemma SubWithCarry8TestTable()
    ensures SubWithCarry8(0x10, 0x10, false) == (0x00, false)
  {
  }

  /** carry << a << carry: `uint16(a) << 1`, bit 0 from the carry (`|= 1` on
    * an even number adds 1); carry out is carry in or the bit shifted out. */
  function LogicalShiftLeft8(a: u8, carry: bool): (r: (u8, bool))
    ensures r.0 as int == (2 * a as int + Bit(carry)) % 0x100
    ensures r.1 == (carry || a >= 0x80)
    ensures !carry ==> r.0 as int + 0x100 * Bit(r.1) == 2 * a as int
  {
    var res := 2 * a as int;
    var res := if carry then res + 1 else res;
    (Wrap8(res), carry || res > 0xFF)
  }

  /** carry >> a >> carry: `a >> 1`, bit 7 from the carry (`|= 0x80` on a
    * number below 0x80 adds 0x80); carry out is carry in or bit 0 of `a`. */
  function LogicalShiftRight8(a: u8, carry: bool): (r: (u8, bool))
    ensures 2 * r.0 as int + a as int % 2 == a as int + 0x100 * Bit(carry)
    ensures r.1 == (carry || a as int % 2 == 1)
  {
    var res := a / 2;
    var res := if carry then res + 0x80 else res;
    (res, carry || a % 2 != 0)
  }

  /** msb(a) >> a >> carry: `int8(a) >> 1` is the floor of half the signed
    * value, so bit 7 is kept; the carry is exactly bit 0 of `a`. */
  function ArithmeticShiftRight8(a: u8): (r: (u8, bool))
    ensures r.0 as int == a as int / 2 + (if a >= 0x80 then 0x80 else 0)
    ensures (r.0 >= 0x80) == (a >= 0x80)
    ensures r.1 == (a % 2 == 1)
  {
    var res := ToInt8(a) / 2;
    assert a >= 0x80 ==> res == a as int / 2 - 0x80;
    (Wrap8(res), a % 2 != 0)
  }
}
